=== FILE: README.md ===
# learn_dutch session engine in Dafny

This project models the practice-session engine of the `learn_dutch` vocabulary trainer.
It covers five parts:

- **Lifetime progress record** (`storage.dfy`, module `Storage`). This is the per-answer fold `updateProgress` with its capped FIFO of per-question hint counts. It also covers the default and reset records and the two derived views, `getAccuracy` and `getHintStats`.
- **Content rotators** (`rotator.dfy`, `wordmanager.dfy`, `verbmanager.dfy`). `WordManager` and `VerbManager` are one generic state machine, `Rotator.State`. It holds a pool, a shuffled presentation order, a cursor and a window of the last five items shown. The two classes differ only in the identity used to decide "recently shown":
  - words compare both their Dutch and English fields;
  - verbs compare the English infinitive.

  The model passes that identity as a key function.
- **CSV loading and shuffling** (`csvparser.dfy`, module `CsvParser`). This is the trim/map/filter of parsed rows, the two error outcomes of `loadCSVData`, and the Fisher–Yates `shuffleArray`.
- **Session reducer of the app component** (`session.dfy`, module `Session`). It covers:
  - the session counters;
  - the answer handler, which judges the answer, updates both records and sets feedback;
  - the delayed advance to the next word;
  - mode change, progress reset and session restart.
- **Shared helpers**:
  - `jsmath.dfy`: `Math.round` over exact reals, and the shared rounded percentage.
  - `seqs.dfy`: JavaScript `slice` with negative positions, last-`n` windows, sums and means.
  - `types.dfy`: the records.
  - `wrappers.dfy`: `Option` and `Result`.

The model replaces the program's inputs from the outside world with parameters:

- **Randomness.** Each shuffle receives `picks`, where `picks[i]` is the index `j <= i` that `Math.floor(Math.random() * (i + 1))` produced at step `i`. `getRandomVerbForm` receives the value `Math.random()` returned.
- **Clock.** Clock readings are `string` parameters: `now` for an answer, and `loadedAt` for the time the storage module was loaded.
- **Answer matching.** The typo-tolerant matcher is a function parameter `fuzzyMatch`. Its code (`src/utils/fuzzyMatch`) is not part of this model.
- **Mutable objects.** The mutable classes become immutable values. Each mutating method returns the new state.

## Model

| member | source | states |
|---|---|---|
| JsMath.Round | src/utils/storage.ts:71 | `Math.round` yields the integer `r` with `r - 1/2 <= x < r + 1/2`, so halves round up |
| JsMath.RoundedPercent | src/utils/storage.ts:69-72 | 0 when the denominator is 0. Otherwise it is the whole percentage nearest to `part/whole * 100`, stated without division as `(2r-1)·whole <= 200·part < (2r+1)·whole`. It lies in [0, 100] whenever `part <= whole` |
| Seqs.SliceFromEnd | src/utils/storage.ts:56 | `slice(-n)` keeps exactly the last `n` elements, or the whole array when it is shorter |
| Seqs.Mean | src/utils/storage.ts:107-113 | the window average is non-negative. Multiplied by the window length it gives back the window's sum. It is 0 for an empty window |
| Storage.UpdateProgress | src/utils/storage.ts:39-61 | `totalAnswers` grows by exactly 1. `correctAnswers` and `wordsLearned` grow by 1 iff the answer is correct. The stored streak is the passed streak after a correct answer and 0 after a wrong one. `bestStreak` is the larger of the old best and that stored streak. `totalHintsUsed` grows by the question's hint count. `questionsWithHints` grows by 1 iff that count is positive. The history becomes the last 10 of old history plus the new count. The date is the answer's clock reading. The fold preserves the record invariant `Valid` |
| Storage.DefaultProgress | src/utils/storage.ts:5-16 | the default record satisfies `Valid`, has every counter 0 and an empty history, and carries the clock reading taken when the module was loaded |
| Storage.ResetProgress | src/utils/storage.ts:63-67 | the reset record satisfies `Valid` and has every counter 0 and an empty history. Its date is the module-load reading of the default record, not the time of the reset. Its accuracy is 0 and all three hint figures are 0 |
| Storage.GetAccuracy | src/utils/storage.ts:69-72 | 0 with no answers. Otherwise it is the nearest whole percentage of correct over total, in [0, 100] when correct <= total |
| Storage.AccuracySevenOfTen | src/utils/storage.ts:69-72 | 7 correct out of 10 gives 70 |
| Storage.HintTrend | src/utils/storage.ts:103-117 | compares the last five history entries with the five before them. The trend is 0 when the earlier window is empty or averages 0. Otherwise its sign is that of recent mean minus earlier mean, in both directions. Its value is the whole percentage nearest to the relative change: with earlier mean `p > 0` and recent mean `q`, `(t - 1/2)·p <= (q - p)·100 < (t + 1/2)·p`. It never drops below -100 |
| Storage.RelativeChange | src/utils/storage.ts:115-122 | for two means: 0 when the earlier one is not positive. Otherwise it has the sign of their difference, is at least -100, and is the whole percentage nearest to `(recent - previous) / previous * 100`, halves rounding up |
| Storage.GetHintStats | src/utils/storage.ts:95-122 | the average and the percentage are 0 with no answers. Otherwise the average is within half a hundredth of hints/answers. The percentage is the nearest whole percentage of questions-with-hints over answers, in [0, 100] when the former is at most the latter. The trend is `HintTrend` of the history |
| Storage.AverageHundredths | src/utils/storage.ts:94-96 | 0 with no answers. Otherwise the quotient, rounded to hundredths as at line 120, lies within half a hundredth of hints/answers |
| Storage.RecentWindow | src/utils/storage.ts:104 | `slice(-5)` of the history is exactly its last five entries |
| Storage.WindowsAreLastTen | src/utils/storage.ts:104-105 | the earlier window followed by the recent one is exactly the last ten entries of the history, so the earlier window is the up to five entries before the last five |
| Storage.TrendAfterHintFreeStart | src/utils/storage.ts:111-117 | history `[0,0,0,0,0,2,2,2,2,2]` gives trend 0, because the earlier average is 0 |
| Storage.TrendAfterHintsStop | src/utils/storage.ts:111-117 | history `[2,2,2,2,2,0,0,0,0,0]` gives trend -100 |
| Storage.FoldCounters | src/utils/storage.ts:47-51 | after any sequence of answers, `totalAnswers` grew by their number. `correctAnswers` and `wordsLearned` grew by the number of correct ones |
| Storage.FoldBestStreak | src/utils/storage.ts:50 | over any sequence of answers the best streak never decreases. It is at least the streak passed with every correct answer |
| Storage.FoldHistory | src/utils/storage.ts:56 | after one or more answers, the history is the last 10 of the old history followed by all new hint counts, in order |
| Storage.FoldValid | src/utils/storage.ts:45-57 | every sequence of answers preserves `Valid`. `Valid` means: correct <= total, words learned = correct, the streak is at most the best streak, and questions with hints are at most both answers and hints. It also means the history has at most 10 entries and sums to no more than the hints used |
| CsvParser.Trim | src/utils/csvParser.ts:21-22 | `trim()` returns a contiguous middle of the string. Everything cut off on either side is ECMAScript whitespace. A non-empty result neither starts nor ends with whitespace. The result is empty iff the whole string is whitespace |
| CsvParser.TrimIdempotent | src/utils/csvParser.ts:21-22 | trimming a trimmed field changes nothing |
| CsvParser.UsablePairs | src/utils/csvParser.ts:20-23 | the map-and-filter yields at most one pair per row. Every pair has a non-empty Dutch and English field |
| CsvParser.UsablePairsComplete | src/utils/csvParser.ts:20-23 | every row whose trimmed fields are both non-empty yields its pair |
| CsvParser.UsablePairsSound | src/utils/csvParser.ts:20-23 | every pair kept comes from some row with both trimmed fields non-empty |
| CsvParser.UsablePairsAppend | src/utils/csvParser.ts:20-23 | the filter keeps rows in their original order: filtering `a + b` gives the filtered `a` followed by the filtered `b` |
| CsvParser.LoadWordPairs | src/utils/csvParser.ts:15-29 | loading succeeds iff there is no parse error and at least one row is usable. Any parse error fails. Otherwise it fails with "no valid pairs" iff no row is usable. On success the list is non-empty, is exactly the filtered rows, and has non-empty fields |
| CsvParser.Swap | src/utils/csvParser.ts:40 | the destructuring swap exchanges two positions, leaves every other position alone and keeps the multiset |
| CsvParser.ShuffleFrom | src/utils/csvParser.ts:38-41 | running the loop from step `i` down keeps the length and the multiset. Positions above `i` are final. Position `i` receives the element at `picks[i]` |
| CsvParser.Shuffle | src/utils/csvParser.ts:36-43 | the shuffled array is a permutation of the input: same length, same multiset |
| CsvParser.ShuffleArray | src/utils/csvParser.ts:36-43 | the swap loop on a copy computes `Shuffle`, a permutation of the input. The input is a value and is left as it was |
| CsvParser.ShuffleCopy | src/utils/csvParser.ts:36-43 | on arrays: the result is a fresh array holding `Shuffle` of the argument, and the argument's contents are unchanged |
| Rotator.New | src/utils/wordManager.ts:11-19 | a new rotator keeps the pool and orders it by `Shuffle` of the pool under the given random choices, a permutation. It starts with the cursor at 0 and an empty window |
| Rotator.Current | src/utils/wordManager.ts:21-24 | no item exactly when the pool is empty. Otherwise it returns the item under the cursor, which belongs to the pool |
| Rotator.Remember | src/utils/wordManager.ts:30-36 | after the push-and-shift the window holds the last five of old window plus item. It ends with the item |
| Rotator.Advance | src/utils/wordManager.ts:29-44 | the previously current item joins the window. The cursor moves on by one. At the end of the order the pool is reshuffled and the cursor returns to 0. The invariant `Valid` is kept |
| Rotator.Attempts | src/utils/wordManager.ts:48 | the skip loop may look at `min(10, n)` positions: exactly `n` for a pool of at most ten, otherwise exactly 10. That is at least one when the pool is non-empty |
| Rotator.Skip | src/utils/wordManager.ts:47-64 | the loop stops after some `k <= min(10, n)` steps at position `(cursor + k) mod n`. Every position stepped over held a recent item of a pool larger than five. Stopping early means the item is not recent or the pool has at most five items |
| Rotator.SkippedToFacts | src/utils/wordManager.ts:56-66 | a pool of at most five never skips. A recent item is accepted from a larger pool only once all `min(10, n)` positions were recent (the fallback) |
| Rotator.Next | src/utils/wordManager.ts:26-67 | on an empty pool the state is unchanged and no item is returned. Otherwise it returns the new current item. The window ends with the previously current item. The order is the advanced one, and the cursor is where the skip loop stopped. `Valid` is kept |
| Rotator.TotalCount | src/utils/wordManager.ts:77-79 | the pool size equals the length of the presentation order. It is 0 iff there is no current item |
| Rotator.Reset | src/utils/wordManager.ts:81-84 | the pool is reshuffled: the order is `Shuffle` of the pool under the new random choices. The cursor returns to 0, the window is emptied, and `Valid` holds |
| WordManager.RecentWordIsRecentKey | src/utils/wordManager.ts:52-54 | the generic "recent" test with the word key is exactly "some recent word has the same Dutch and the same English" |
| WordManager.NewWordManager | src/utils/wordManager.ts:11-19 | the constructor keeps the words, shuffles them into a permutation, and starts at 0 with an empty window |
| WordManager.GetCurrentWord | src/utils/wordManager.ts:21-24 | null exactly for an empty pool. Otherwise it returns the word under the cursor, which is one of the loaded words |
| WordManager.GetNextWord | src/utils/wordManager.ts:26-67 | null iff the pool is empty. The order is the advanced one (reshuffled at its end) and the cursor stops where the skip loop stops; with at most five words it simply moves on by one. The returned word is what `getCurrentWord` then returns. The window is exactly the last five of the old window plus the previously current word, so it holds 1 to 5 words and ends with that word. With more than five words, a returned word matching a recent one on both fields means all `min(10, n)` positions examined matched |
| WordManager.GetCorrectAnswer | src/utils/wordManager.ts:69-75 | in `nl-en` the Dutch side is displayed and the English expected. In `en-nl` it is the reverse |
| WordManager.AnswerIsOtherSide | src/utils/wordManager.ts:69-75 | the expected answer is what the opposite mode displays. Together the displayed text and the expected answer are the word's two sides |
| WordManager.GetTotalWordsCount | src/utils/wordManager.ts:77-79 | the number of loaded words is the length of the current order. It is 0 iff there is no current word |
| WordManager.Reset | src/utils/wordManager.ts:81-84 | the words are reshuffled, the cursor returns to 0 and the window is emptied. The current word is the first of the new order |
| VerbManager.RecentVerbIsRecentKey | src/utils/verbManager.ts:47-49 | the generic "recent" test with the verb key is exactly "some recent verb has the same English infinitive" |
| VerbManager.NewVerbManager | src/utils/verbManager.ts:11-19 | the constructor keeps the verbs, shuffles them into a permutation, and starts at 0 with an empty window |
| VerbManager.GetCurrentVerb | src/utils/verbManager.ts:21-24 | null exactly for an empty pool. Otherwise it returns the verb under the cursor, which is one of the loaded verbs |
| VerbManager.GetNextVerb | src/utils/verbManager.ts:26-60 | null iff the pool is empty. The order is the advanced one (reshuffled at its end) and the cursor stops where the skip loop stops; with at most five verbs it simply moves on by one. The returned verb is what `getCurrentVerb` then returns. The window is exactly the last five of the old window plus the previously current verb, so it holds 1 to 5 verbs and ends with that verb. With more than five verbs, a returned verb sharing its English infinitive with a recent one means all `min(10, n)` positions examined did |
| VerbManager.GetRandomVerbForm | src/utils/verbManager.ts:62-65 | the form at list position `i` is chosen exactly when the random value lies in `[i/4, (i+1)/4)`. So the result is always one of the four forms, each on a quarter of the range |
| VerbManager.GetCorrectAnswer | src/utils/verbManager.ts:71-73 | the answer is the verb record's property named by the form. That property is never the displayed English infinitive |
| VerbManager.GetVerbFormLabel | src/utils/verbManager.ts:75-83 | every form has a non-empty label |
| VerbManager.VerbFormLabelsDistinct | src/utils/verbManager.ts:75-83 | no two forms share a label |
| VerbManager.GetTotalVerbsCount | src/utils/verbManager.ts:85-87 | the number of loaded verbs is the length of the current order. It is 0 iff there is no current verb |
| VerbManager.Reset | src/utils/verbManager.ts:89-92 | the verbs are reshuffled, the cursor returns to 0 and the window is emptied. The current verb is the first of the new order |
| Session.UpdateSessionStats | src/App.tsx:67-70 | the counters are kept. Accuracy is 0 with no answers, and otherwise the nearest whole percentage of correct over total, in [0, 100] when correct <= total |
| Session.RecordAnswer | src/App.tsx:80-85 | total grows by exactly 1. Correct grows by 1 iff the answer is right. The streak becomes prior + 1 on a right answer and 0 on a wrong one. Accuracy agrees with the new counters. `correct <= total` is preserved |
| Session.Submit | src/App.tsx:80-88 | the lifetime fold receives the new session streak and 0 hints. The stored streak equals the session streak. The best streak covers both old best and new streak. Hint totals are unchanged, and the history ends with 0 |
| Session.HandleAnswerSubmit | src/App.tsx:73-101 | without a current word or manager nothing changes. Otherwise it judges the answer against the side not displayed and applies `RecordAnswer` and `updateProgress`. Feedback reflects the verdict. The expected answer is stored only after a wrong answer. The word, mode and manager are left alone |
| Session.ShowNextWord | src/App.tsx:104-113 | the manager advances: its order is the advanced one and its cursor is where the skip loop stopped. Its new current word is shown. Feedback and stored answer are cleared. A non-empty pool always yields a word and leaves as window exactly the last five of the old window plus the previously current word. The pool, the mode and both records are unchanged |
| Session.HandleModeChange | src/App.tsx:117-123 | sets the mode and clears the feedback. Word, manager, both records and the stored expected answer are kept. After a flip, the expected answer is the text the old mode displayed |
| Session.HandleResetProgress | src/App.tsx:126-133 | the lifetime record is exactly the reset record and satisfies `Valid` (no answers, best streak 0, accuracy 0). All four session counters are 0. Word, manager, mode, feedback and stored expected answer are kept |
| Session.HandleRestartSession | src/App.tsx:136-147 | without a manager nothing changes. Otherwise the manager is reset over the same pool (cursor 0, empty window) and its first word shown. Feedback is cleared and all four session counters are 0. The mode, the stored expected answer and the lifetime record are kept |
| Session.SessionCounts | src/App.tsx:80-85 | after any sequence of answers, total grew by their number and correct by the number of right ones, and correct <= total. The streak is the run of right answers at the end, carried over from before only when every answer was right |
| Session.LongestRunIsLongest | src/App.tsx:83 | no unbroken run of right answers is longer than `LongestRun` |
| Session.LongestRunIsReached | src/App.tsx:83 | some unbroken run of right answers is exactly `LongestRun` long |
| Session.BestStreakIsLongestRun | src/App.tsx:83-88 | over a sitting that starts with streak 0, the session streak is the trailing run of right answers. The lifetime best streak ends as the larger of its old value and the longest run of right answers in the sitting |
| Session.ResetThenLongestRun | src/App.tsx:126-133 | after a progress reset, a sitting of answers leaves the session streak at its trailing run of right answers and the lifetime best streak at exactly its longest run |

## Behaviour worth noting

- **Trend for `[0,0,0,0,0,2,2,2,2,2]`.** Hints that start after a hint-free stretch give trend 0, not a positive trend, because the earlier window averages 0 and the relative change is then defined as 0 (`Storage.TrendAfterHintFreeStart`).
- **Reset date.** `resetProgress` copies a default record whose date was taken once, when the module was loaded. The reset record therefore carries that load time, not the time of the reset (`Storage.ResetProgress` takes `loadedAt`).
- **Shape of `UserProgress`.** `src/types/index.ts:6-13` declares it without the hint fields. The model uses the extended shape that `src/utils/storage.ts:5-16` builds.
- **Verb types.** `VerbPair` and `VerbForm` are imported from `src/types` but not declared in `src/types/index.ts`. Their fields follow the property names `verbManager.ts` reads.
- **`hintsPerSession`.** Despite the name, it holds one entry per answered question, not per session.

## Left out

- `loadProgress` / `saveProgress` (src/utils/storage.ts:18-37): local-storage I/O. The save inside `updateProgress` and `resetProgress` does not affect their results and is dropped. The field-by-field merge of a stored record into the default is left out too.
- Defensive guards in `getHintStats` (src/utils/storage.ts:79-93, 124-131): the non-object check, the `|| 0` and `|| []` fallbacks, and the catch branch are unreachable for a well-typed record, so they are not modelled.
- Fetching and parsing the CSV file (src/utils/csvParser.ts:5-13): `fetch`, PapaParse and the header lower-casing are I/O and a library. The model starts from the parser's error count and rows, with each column either present or absent.
- `initializeApp` (src/App.tsx:35-64): loading flags and the error message are rendering state. Its logic is `LoadWordPairs`, then `NewWordManager`, then `GetCurrentWord`.
- The 1.5 s `setTimeout` in `handleAnswerSubmit`: `Session.ShowNextWord` is its callback, taken as running after the handler. Interleavings with other events during the delay are not modelled.
- Session.ShowNextWord: requires a manager, because the callback is only scheduled after the handler's guard has seen one.
- Storage.AverageHundredths: states the rounded average only to within half a hundredth of the exact quotient, for the reason given for `Storage.GetHintStats`.
- Storage.GetHintStats: states the average only to within half a hundredth of the exact quotient. JavaScript's binary floating point and its `Math.round(x * 100) / 100` are computed over exact reals here.
- JsMath.Round: exact reals, not IEEE doubles. Ties and values that are not exactly representable may round differently in JavaScript. For 23 correct out of 40, JavaScript computes `23/40*100` as `57.49999999999999` and `Math.round` gives 57, whereas `JsMath.RoundedPercent(23, 40)` is 58. The difference reaches `Storage.GetAccuracy`, the session accuracy of `Session.UpdateSessionStats` and the `hintUsagePercentage` of `Storage.GetHintStats`.
- Counters are unbounded naturals. JavaScript numbers lose integer precision above 2^53, and negative or fractional hint counts cannot be passed.
- `getWordToDisplay` and `getVerbToDisplay` have no contract of their own. Their relation to the expected answer is stated by `WordManager.GetCorrectAnswer`, `WordManager.AnswerIsOtherSide` and `VerbManager.GetCorrectAnswer`.
- Hint levels, the AI hint service, themes, the statistics dashboard and all UI components: network access, rendering or DOM measurement.

=== FILE: csvparser.dfy ===
/** The pure parts of CSV loading: trimming and filtering the parsed rows, and the
    Fisher–Yates shuffle the content managers use. Fetching the file and the CSV parser
    library are not part of this model; they hand over `ParsedCsv`. */
module CsvParser {
  import opened Types
  import opened Wrappers

  /** Characters `String.prototype.trim` removes: WhiteSpace and LineTerminator as listed
      in sections 12.2 and 12.3 of ECMA-262. */
  predicate IsJsWhitespace(c: char)
  {
    || c == '\t' || c == '\n' || c == '\U{000B}' || c == '\U{000C}' || c == '\r' || c == ' '
    || c == '\U{00A0}' || c == '\U{1680}' || ('\U{2000}' <= c <= '\U{200A}')
    || c == '\U{2028}' || c == '\U{2029}' || c == '\U{202F}' || c == '\U{205F}'
    || c == '\U{3000}' || c == '\U{FEFF}'
  }

  /** Number of whitespace characters at the start of `s`. */
  function LeadingSpace(s: string): (k: nat)
    ensures k <= |s|
    ensures forall i :: 0 <= i < k ==> IsJsWhitespace(s[i])
    ensures k < |s| ==> !IsJsWhitespace(s[k])
  {
    if |s| > 0 && IsJsWhitespace(s[0]) then 1 + LeadingSpace(s[1..]) else 0
  }

  /** Number of whitespace characters at the end of `s`. */
  function TrailingSpace(s: string): (k: nat)
    ensures k <= |s|
    ensures forall i :: |s| - k <= i < |s| ==> IsJsWhitespace(s[i])
    ensures k < |s| ==> !IsJsWhitespace(s[|s| - k - 1])
  {
    if |s| > 0 && IsJsWhitespace(s[|s| - 1]) then 1 + TrailingSpace(s[..|s| - 1]) else 0
  }

  /** `s.trim()`: the middle of `s` with surrounding whitespace removed. */
  function Trim(s: string): (r: string)
    ensures exists b, e ::
      && 0 <= b <= e <= |s| && r == s[b..e]
      && (forall i :: 0 <= i < b ==> IsJsWhitespace(s[i]))
      && (forall i :: e <= i < |s| ==> IsJsWhitespace(s[i]))
    ensures |r| > 0 ==> !IsJsWhitespace(r[0]) && !IsJsWhitespace(r[|r| - 1])
    ensures r == [] <==> forall i :: 0 <= i < |s| ==> IsJsWhitespace(s[i])
  {
    var b := LeadingSpace(s);
    if b == |s| then
      assert s[b..b] == [];
      []
    else
      var t := s[b..];
      var e := b + (|t| - TrailingSpace(t));
      assert !IsJsWhitespace(s[b]);
      assert t[0] == s[b];
      assert e > b;
      s[b..e]
  }

  /** Trimming twice is trimming once. */
  lemma TrimIdempotent(s: string)
    ensures Trim(Trim(s)) == Trim(s)
  {
    var r := Trim(s);
    if |r| > 0 {
      assert LeadingSpace(r) == 0;
      assert TrailingSpace(r[0..]) == 0 by {
        assert r[0..] == r;
      }
    }
  }

  /** A parsed CSV row: either column may be missing. */
  datatype Row = Row(dutch: Option<string>, english: Option<string>)

  /** What the CSV parser hands over: its error count and the rows it read. */
  datatype ParsedCsv = ParsedCsv(errorCount: nat, data: seq<Row>)

  datatype CsvError = ParseFailed | NoValidWordPairs

  /** `row.field?.trim() || ''`. */
  function Field(f: Option<string>): string
  {
    match f
    case None => ""
    case Some(s) => Trim(s)
  }

  /** Row to pair: each field trimmed, a missing field read as empty. */
  function ToPair(row: Row): WordPair
  {
    WordPair(Field(row.dutch), Field(row.english))
  }

  /** A pair survives the filter when both fields are non-empty. */
  predicate Usable(pair: WordPair)
  {
    pair.dutch != "" && pair.english != ""
  }

  /** The mapped and filtered rows, in their original order. */
  function UsablePairs(rows: seq<Row>): (pairs: seq<WordPair>)
    ensures |pairs| <= |rows|
    ensures forall i :: 0 <= i < |pairs| ==> Usable(pairs[i])
  {
    if |rows| == 0 then []
    else
      var rest := UsablePairs(rows[..|rows| - 1]);
      var pair := ToPair(rows[|rows| - 1]);
      if Usable(pair) then rest + [pair] else rest
  }

  /** The rows-to-pairs step of loading the vocabulary file: a parse error or an empty
      result is an error, otherwise every usable row becomes a pair. */
  function LoadWordPairs(parsed: ParsedCsv): (r: Result<seq<WordPair>, CsvError>)
    ensures parsed.errorCount > 0 ==> r == Failure(ParseFailed)
    ensures r.Success? <==>
      parsed.errorCount == 0 && exists i :: 0 <= i < |parsed.data| && Usable(ToPair(parsed.data[i]))
    ensures parsed.errorCount == 0 ==>
      (r == Failure(NoValidWordPairs) <==> forall i :: 0 <= i < |parsed.data| ==> !Usable(ToPair(parsed.data[i])))
    ensures r.Success? ==> |r.value| > 0 && r.value == UsablePairs(parsed.data)
    ensures r.Success? ==> forall i :: 0 <= i < |r.value| ==> r.value[i].dutch != "" && r.value[i].english != ""
  {
    if parsed.errorCount > 0 then Failure(ParseFailed)
    else
      var pairs := UsablePairs(parsed.data);
      if |pairs| == 0 then
        assert forall i :: 0 <= i < |parsed.data| ==> !Usable(ToPair(parsed.data[i])) by {
          forall i | 0 <= i < |parsed.data|
            ensures !Usable(ToPair(parsed.data[i]))
          {
            if Usable(ToPair(parsed.data[i])) {
              UsablePairsComplete(parsed.data, i);
            }
          }
        }
        Failure(NoValidWordPairs)
      else
        UsablePairsSound(parsed.data, pairs[0]);
        Success(pairs)
  }

  /** Every usable row's pair is kept. */
  lemma {:induction false} UsablePairsComplete(rows: seq<Row>, i: nat)
    requires i < |rows| && Usable(ToPair(rows[i]))
    ensures ToPair(rows[i]) in UsablePairs(rows)
    decreases |rows|
  {
    if i < |rows| - 1 {
      var prefix := rows[..|rows| - 1];
      assert prefix[i] == rows[i];
      UsablePairsComplete(prefix, i);
    }
  }

  /** Every kept pair comes from some usable row. */
  lemma {:induction false} UsablePairsSound(rows: seq<Row>, p: WordPair)
    requires p in UsablePairs(rows)
    ensures exists i :: 0 <= i < |rows| && ToPair(rows[i]) == p && Usable(p)
    decreases |rows|
  {
    var prefix := rows[..|rows| - 1];
    if p == ToPair(rows[|rows| - 1]) && Usable(p) {
    } else {
      UsablePairsSound(prefix, p);
      var i :| 0 <= i < |prefix| && ToPair(prefix[i]) == p && Usable(p);
      assert rows[i] == prefix[i];
    }
  }

  /** The filter keeps relative order: filtering a concatenation concatenates the filtered parts. */
  lemma {:induction false} UsablePairsAppend(a: seq<Row>, b: seq<Row>)
    ensures UsablePairs(a + b) == UsablePairs(a) + UsablePairs(b)
    decreases |b|
  {
    if |b| == 0 {
      assert a + b == a;
    } else {
      var b' := b[..|b| - 1];
      assert (a + b)[..|a + b| - 1] == a + b';
      assert (a + b)[|a + b| - 1] == b[|b| - 1];
      UsablePairsAppend(a, b');
    }
  }

  /** The random choices of a shuffle of `n` elements: step `i` swaps with `picks[i] <= i`
      (`Math.floor(Math.random() * (i + 1))`); `picks[0]` is never used. */
  predicate ValidPicks(picks: seq<nat>, n: nat)
  {
    |picks| == n && forall i :: 0 <= i < n ==> picks[i] <= i
  }

  function Swap<T>(s: seq<T>, i: nat, j: nat): (r: seq<T>)
    requires i < |s| && j < |s|
    ensures |r| == |s| && multiset(r) == multiset(s)
    ensures r[i] == s[j] && r[j] == s[i]
    ensures forall k :: 0 <= k < |s| && k != i && k != j ==> r[k] == s[k]
  {
    s[i := s[j]][j := s[i]]
  }

  /** The iterations `i, i - 1, …, 1` of the Fisher–Yates loop. */
  function ShuffleFrom<T>(s: seq<T>, picks: seq<nat>, i: nat): (r: seq<T>)
    requires i < |s| && ValidPicks(picks, |s|)
    ensures |r| == |s| && multiset(r) == multiset(s)
    ensures forall k :: i < k < |s| ==> r[k] == s[k]
    ensures i > 0 ==> r[i] == s[picks[i]]
    decreases i
  {
    if i == 0 then s
    else ShuffleFrom(Swap(s, i, picks[i]), picks, i - 1)
  }

  /** `shuffleArray`: a permutation of `a` chosen by `picks`. */
  function Shuffle<T>(a: seq<T>, picks: seq<nat>): (r: seq<T>)
    requires ValidPicks(picks, |a|)
    ensures |r| == |a| && multiset(r) == multiset(a)
  {
    if |a| == 0 then a else ShuffleFrom(a, picks, |a| - 1)
  }

  /** One iteration of the loop: the remaining iterations still produce the final result. */
  lemma ShuffleStep<T>(before: seq<T>, after: seq<T>, picks: seq<nat>, i: nat, done: seq<T>)
    requires 0 < i < |before| && ValidPicks(picks, |before|)
    requires ShuffleFrom(before, picks, i) == done
    requires after == Swap(before, i, picks[i])
    ensures ShuffleFrom(after, picks, i - 1) == done
  {
  }

  /** The swap loop of `shuffleArray`, run on a copy of `a`. */
  method ShuffleArray<T>(a: seq<T>, picks: seq<nat>) returns (r: seq<T>)
    requires ValidPicks(picks, |a|)
    ensures r == Shuffle(a, picks)
    ensures |r| == |a| && multiset(r) == multiset(a)
  {
    if |a| == 0 {
      return a;
    }
    var shuffled := a;
    var i := |a| - 1;
    while i > 0
      invariant 0 <= i < |shuffled| == |a|
      invariant ShuffleFrom(shuffled, picks, i) == Shuffle(a, picks)
      decreases i
    {
      var j := picks[i];
      ShuffleStep(shuffled, Swap(shuffled, i, j), picks, i, Shuffle(a, picks));
      shuffled := shuffled[i := shuffled[j]][j := shuffled[i]];
      i := i - 1;
    }
    r := shuffled;
  }

  /** `shuffleArray` on arrays: the swaps act on a copy of `a`, so the argument is left as it
      was and the result is a fresh array holding `Shuffle` of it. */
  method ShuffleCopy<T>(a: array<T>, picks: seq<nat>) returns (b: array<T>)
    requires ValidPicks(picks, a.Length)
    ensures fresh(b) && b[..] == Shuffle(a[..], picks)
    ensures a[..] == old(a[..])
  {
    var shuffled := ShuffleArray(a[..], picks);
    b := new T[|shuffled|](k requires 0 <= k < |shuffled| => shuffled[k]);
  }
}

=== FILE: jsmath.dfy ===
/** The JavaScript numeric helpers the engine relies on, over exact reals. */
module JsMath {

  /** `Math.round`: the nearest integer, with halves rounded towards +infinity. */
  function Round(x: real): (r: int)
    ensures r as real - 0.5 <= x < r as real + 0.5
  {
    (x + 0.5).Floor
  }

  function Max(a: int, b: int): int
  {
    if a >= b then a else b
  }

  function Min(a: int, b: int): int
  {
    if a <= b then a else b
  }

  /** `whole > 0 ? Math.round((part / whole) * 100) : 0`, the percentage shape shared by
      the lifetime accuracy, the session accuracy and the hint-usage percentage. */
  function RoundedPercent(part: nat, whole: nat): (r: int)
    ensures whole == 0 ==> r == 0
    ensures whole > 0 ==> (2 * r - 1) * whole <= 200 * part < (2 * r + 1) * whole
    ensures part <= whole ==> 0 <= r <= 100
  {
    if whole == 0 then 0
    else
      var r := Round(part as real / whole as real * 100.0);
      NearestPercent(part, whole, r);
      r
  }

  /** Clearing the denominator of `r - 1/2 <= 100 * part / whole < r + 1/2`. */
  lemma NearestPercent(part: nat, whole: nat, r: int)
    requires whole > 0
    requires r as real - 0.5 <= part as real / whole as real * 100.0 < r as real + 0.5
    ensures (2 * r - 1) * whole <= 200 * part < (2 * r + 1) * whole
    ensures part <= whole ==> 0 <= r <= 100
  {
    PercentLower(part, whole, r);
    PercentUpper(part, whole, r);
    if part <= whole {
      assert (2 * r - 1) * whole <= 200 * whole;
      CancelInt(2 * r - 1, 200, whole);
      assert 0 * whole < (2 * r + 1) * whole;
      CancelIntStrict(0, 2 * r + 1, whole);
    }
  }

  lemma PercentLower(part: nat, whole: nat, r: int)
    requires whole > 0
    requires r as real - 0.5 <= part as real / whole as real * 100.0
    ensures ((2 * r - 1) * whole) as real <= (200 * part) as real
  {
    var w := whole as real;
    var q := part as real / w * 100.0;
    var l := r as real - 0.5;
    ScaleReal(l, q, w);
    assert q * w == 100.0 * part as real;
    assert l * w * 2.0 == ((2 * r - 1) * whole) as real;
  }

  lemma PercentUpper(part: nat, whole: nat, r: int)
    requires whole > 0
    requires part as real / whole as real * 100.0 < r as real + 0.5
    ensures (200 * part) as real < ((2 * r + 1) * whole) as real
  {
    var w := whole as real;
    var q := part as real / w * 100.0;
    var h := r as real + 0.5;
    ScaleRealStrict(q, h, w);
    assert q * w == 100.0 * part as real;
    assert h * w * 2.0 == ((2 * r + 1) * whole) as real;
  }

  lemma ScaleReal(a: real, b: real, w: real)
    requires a <= b && w > 0.0
    ensures a * w <= b * w
  {
  }

  lemma ScaleRealStrict(a: real, b: real, w: real)
    requires a < b && w > 0.0
    ensures a * w < b * w
  {
  }

  lemma CancelInt(x: int, y: int, w: int)
    requires w > 0 && x * w <= y * w
    ensures x <= y
  {
  }

  lemma CancelIntStrict(x: int, y: int, w: int)
    requires w > 0 && x * w < y * w
    ensures x < y
  {
  }
}

=== FILE: rotator.dfy ===
/** The anti-repeat content rotator shared by the word and verb managers: a shuffled
    presentation order, a cursor into it, and a window of the last five items shown.
    The two managers differ only in what counts as "the same item", so that identity is
    the `key` parameter. Each random reshuffle is fed its choices through `picks`. */
module Rotator {
  import opened Wrappers
  import CsvParser
  import JsMath
  import Seqs

  /** At most this many recently shown items are remembered. */
  const MaxRecent: nat := 5

  /** The skip loop looks at no more than this many positions. */
  const MaxAttempts: nat := 10

  datatype State<T> = State(items: seq<T>, shuffled: seq<T>, index: nat, recent: seq<T>)

  /** The class invariant: the order is a permutation of the pool, the cursor is a valid
      position (0 for an empty pool), and the window is short and holds pool items. */
  ghost predicate Valid<T>(s: State<T>)
  {
    && multiset(s.shuffled) == multiset(s.items)
    && (|s.shuffled| == 0 ==> s.index == 0)
    && (|s.shuffled| > 0 ==> s.index < |s.shuffled|)
    && |s.recent| <= MaxRecent
    && (forall x :: x in s.recent ==> x in s.items)
  }

  /** The constructor: shuffle the pool, cursor at 0, nothing shown yet. */
  function New<T>(items: seq<T>, picks: seq<nat>): (s: State<T>)
    requires CsvParser.ValidPicks(picks, |items|)
    ensures Valid(s)
    ensures s.items == items && s.index == 0 && s.recent == []
    ensures s.shuffled == CsvParser.Shuffle(items, picks)
  {
    State(items, CsvParser.Shuffle(items, picks), 0, [])
  }

  /** The item under the cursor; `None` exactly for an empty pool. */
  function Current<T>(s: State<T>): (r: Option<T>)
    requires Valid(s)
    ensures r.None? <==> |s.items| == 0
    ensures r.Some? ==> r.value == s.shuffled[s.index] && r.value in s.items
  {
    if |s.shuffled| == 0 then None
    else
      assert s.shuffled[s.index] in multiset(s.shuffled);
      Some(s.shuffled[s.index])
  }

  /** Whether `x` has the same identity as some recently shown item (`recent.some(…)`). */
  predicate IsRecent<T, K(==)>(recent: seq<T>, key: T -> K, x: T)
  {
    exists i :: 0 <= i < |recent| && key(recent[i]) == key(x)
  }

  /** Step 1 of advancing: push the item, then drop the oldest if the window overflows. */
  function Remember<T>(recent: seq<T>, item: T): (r: seq<T>)
    requires |recent| <= MaxRecent
    ensures r == Seqs.LastN(recent + [item], MaxRecent)
    ensures |r| <= MaxRecent && r[|r| - 1] == item
    ensures forall x :: x in r ==> x in recent || x == item
  {
    var pushed := recent + [item];
    if |pushed| > MaxRecent then pushed[1..] else pushed
  }

  /** Steps 1 and 2 of advancing: remember the current item, move the cursor on, and
      reshuffle into a new order with the cursor at 0 when it runs off the end. */
  function Advance<T>(s: State<T>, picks: seq<nat>): (t: State<T>)
    requires Valid(s) && |s.shuffled| > 0 && CsvParser.ValidPicks(picks, |s.items|)
    ensures Valid(t) && t.items == s.items
    ensures t.recent == Seqs.LastN(s.recent + [s.shuffled[s.index]], MaxRecent)
    ensures s.index + 1 < |s.shuffled| ==> t.shuffled == s.shuffled && t.index == s.index + 1
    ensures s.index + 1 == |s.shuffled| ==> t.shuffled == CsvParser.Shuffle(s.items, picks) && t.index == 0
  {
    var current := s.shuffled[s.index];
    assert current in multiset(s.shuffled);
    var recent := Remember(s.recent, current);
    assert forall x :: x in recent ==> x in s.items;
    if s.index + 1 >= |s.shuffled| then State(s.items, CsvParser.Shuffle(s.items, picks), 0, recent)
    else State(s.items, s.shuffled, s.index + 1, recent)
  }

  /** How many positions the skip loop may look at: `Math.min(10, length)`. */
  function Attempts(n: nat): (m: nat)
    ensures m <= MaxAttempts && m <= n
    ensures m == n || m == MaxAttempts
    ensures n > 0 ==> m > 0
  {
    JsMath.Min(MaxAttempts, n)
  }

  /** The position the skip loop looks at after `k` steps from the cursor of `t`. */
  function Slot<T>(t: State<T>, k: nat): (i: nat)
    requires |t.shuffled| > 0
    ensures i < |t.shuffled|
  {
    (t.index + k) % |t.shuffled|
  }

  function Candidate<T>(t: State<T>, k: nat): T
    requires |t.shuffled| > 0
  {
    t.shuffled[Slot(t, k)]
  }

  lemma SlotStep<T>(t: State<T>, k: nat)
    requires |t.shuffled| > 0
    ensures (Slot(t, k) + 1) % |t.shuffled| == Slot(t, k + 1)
  {
    ModSucc(t.index + k, |t.shuffled|);
  }

  lemma ModSucc(a: nat, n: nat)
    requires n > 0
    ensures (a % n + 1) % n == (a + 1) % n
  {
    var q := a / n;
    var r := a % n;
    assert a == q * n + r;
    if r + 1 < n {
      ModUnique(a + 1, q, r + 1, n);
      ModUnique(r + 1, 0, r + 1, n);
    } else {
      ModUnique(a + 1, q + 1, 0, n);
      ModUnique(r + 1, 1, 0, n);
    }
  }

  /** Division with remainder has only one answer. */
  lemma ModUnique(a: int, q: int, r: int, n: int)
    requires n > 0 && a == q * n + r && 0 <= r < n
    ensures a % n == r
  {
    var q' := a / n;
    assert a == q' * n + a % n;
    if q' > q {
      MulLe(q + 1, q', n);
    } else if q' < q {
      MulLe(q' + 1, q, n);
    }
  }

  lemma MulLe(x: int, y: int, n: int)
    requires x <= y && n > 0
    ensures x * n <= y * n
  {
  }

  /** The skip loop started at the cursor of `t` stopped after `k` steps: every position it
      stepped over held a recently shown item of a pool of more than five, and it stopped
      early only at an item that is not recent or because the pool has at most five items. */
  ghost predicate SkippedTo<T, K>(t: State<T>, key: T -> K, k: nat)
    requires |t.shuffled| > 0
  {
    && k <= Attempts(|t.shuffled|)
    && (k > 0 ==> |t.shuffled| > MaxRecent)
    && (forall j :: 0 <= j < k ==> IsRecent(t.recent, key, Candidate(t, j)))
    && (k < Attempts(|t.shuffled|) ==> |t.shuffled| <= MaxRecent || !IsRecent(t.recent, key, Candidate(t, k)))
  }

  /** What a stop position says about the item accepted there. */
  lemma SkippedToFacts<T, K>(t: State<T>, key: T -> K, k: nat)
    requires |t.shuffled| > 0 && SkippedTo(t, key, k)
    ensures |t.shuffled| <= MaxRecent ==> k == 0
    ensures |t.shuffled| > MaxRecent && IsRecent(t.recent, key, Candidate(t, k)) ==>
      k == Attempts(|t.shuffled|)
      && forall j :: 0 <= j < Attempts(|t.shuffled|) ==> IsRecent(t.recent, key, Candidate(t, j))
  {
  }

  /** Step 3 of advancing, the skip loop, from the cursor of `t`. */
  method Skip<T, K(==)>(t: State<T>, key: T -> K) returns (index: nat)
    requires Valid(t) && |t.shuffled| > 0
    ensures index < |t.shuffled|
    ensures exists k :: SkippedTo(t, key, k) && index == Slot(t, k)
  {
    var n := |t.shuffled|;
    var maxAttempts := Attempts(n);
    index := t.index;
    var attempts := 0;
    assert index == Slot(t, 0);
    while attempts < maxAttempts
      invariant 0 <= attempts <= maxAttempts
      invariant index == Slot(t, attempts)
      invariant attempts > 0 ==> n > MaxRecent
      invariant forall j :: 0 <= j < attempts ==> IsRecent(t.recent, key, Candidate(t, j))
      decreases maxAttempts - attempts
    {
      var next := t.shuffled[index];
      if !IsRecent(t.recent, key, next) || n <= MaxRecent {
        assert SkippedTo(t, key, attempts);
        return;
      }
      SlotStep(t, attempts);
      index := (index + 1) % n;
      attempts := attempts + 1;
    }
    assert SkippedTo(t, key, attempts);
  }

  /** `getNextWord` / `getNextVerb`. For a non-empty pool: the previously current item
      joins the window, the cursor moves on (reshuffling at the end of the order), and the
      skip loop then walks forward over recently shown items, at most `min(10, n)` steps.
      It stops at the first item not in the window, at once when the pool has at most
      five items, and otherwise accepts whatever is under the cursor when the steps run out. */
  method Next<T, K(==)>(s: State<T>, key: T -> K, picks: seq<nat>) returns (s': State<T>, r: Option<T>)
    requires Valid(s) && CsvParser.ValidPicks(picks, |s.items|)
    ensures Valid(s') && s'.items == s.items
    ensures |s.items| == 0 ==> s' == s && r == None
    ensures |s.items| > 0 ==> r == Some(s'.shuffled[s'.index])
    ensures |s.items| > 0 ==> s'.recent == Seqs.LastN(s.recent + [s.shuffled[s.index]], MaxRecent)
    ensures |s.items| > 0 ==> s'.recent[|s'.recent| - 1] == s.shuffled[s.index]
    ensures |s.items| > 0 ==> s'.shuffled == Advance(s, picks).shuffled
    ensures |s.items| > 0 ==>
      exists k :: SkippedTo(Advance(s, picks), key, k) && s'.index == Slot(Advance(s, picks), k)
    ensures 0 < |s.items| <= MaxRecent ==> s'.index == Advance(s, picks).index
    ensures |s.items| > MaxRecent && r.Some? && IsRecent(s'.recent, key, r.value) ==>
      forall j :: 0 <= j < Attempts(|s.items|) ==> IsRecent(s'.recent, key, Candidate(Advance(s, picks), j))
  {
    if |s.shuffled| == 0 {
      return s, None;
    }
    var t := Advance(s, picks);
    var index := Skip(t, key);
    s', r := t.(index := index), Some(t.shuffled[index]);
    ghost var k :| SkippedTo(t, key, k) && index == Slot(t, k);
    SkippedToFacts(t, key, k);
    PermutationLength(t.shuffled, t.items);
    ModUnique(t.index, 0, t.index, |t.shuffled|);
  }

  /** The size of the pool, which is also the length of the presentation order since
      every shuffle is a permutation of the pool. */
  function TotalCount<T>(s: State<T>): (n: nat)
    ensures Valid(s) ==> n == |s.shuffled|
    ensures Valid(s) ==> (n == 0 <==> Current(s).None?)
  {
    PermutationLength(s.shuffled, s.items);
    |s.items|
  }

  lemma PermutationLength<T>(a: seq<T>, b: seq<T>)
    ensures multiset(a) == multiset(b) ==> |a| == |b|
  {
    if multiset(a) == multiset(b) {
      assert |multiset(a)| == |multiset(b)|;
    }
  }

  /** `reset`: a fresh shuffle of the pool, the cursor at 0, and an empty window. */
  function Reset<T>(s: State<T>, picks: seq<nat>): (t: State<T>)
    requires CsvParser.ValidPicks(picks, |s.items|)
    ensures Valid(t) && t.items == s.items
    ensures t.index == 0 && t.recent == []
    ensures t.shuffled == CsvParser.Shuffle(s.items, picks)
  {
    New(s.items, picks)
  }
}

=== FILE: seqs.dfy ===
/** Sequence helpers: JavaScript's `Array.prototype.slice` and the folds the statistics use. */
module Seqs {

  /** How `slice` turns a possibly negative position into an index: negative positions
      count from the end, and every position is clamped into `[0, len]`. */
  function RelativeIndex(i: int, len: nat): (k: nat)
    ensures k <= len
    ensures 0 <= i <= len ==> k == i
    ensures i < 0 && -i <= len ==> k == len + i
  {
    if i < 0 then (if len + i < 0 then 0 else len + i)
    else if i > len then len
    else i
  }

  /** `s.slice(start, end)`; `s.slice(start)` is `Slice(s, start, |s|)`. */
  function Slice<T>(s: seq<T>, start: int, end: int): (r: seq<T>)
    ensures |r| <= |s|
  {
    var b := RelativeIndex(start, |s|);
    var e := RelativeIndex(end, |s|);
    if b < e then s[b..e] else []
  }

  /** The last `n` elements of `s` (all of `s` when it is shorter). */
  function LastN<T>(s: seq<T>, n: nat): (r: seq<T>)
    ensures |r| == if |s| <= n then |s| else n
    ensures s == s[..|s| - |r|] + r
  {
    if |s| <= n then s else s[|s| - n..]
  }

  /** `s.slice(-n)` keeps exactly the last `n` elements. */
  lemma SliceFromEnd<T>(s: seq<T>, n: nat)
    requires n > 0
    ensures Slice(s, -(n as int), |s|) == LastN(s, n)
  {
    assert RelativeIndex(|s|, |s|) == |s|;
    if |s| <= n {
      assert RelativeIndex(-(n as int), |s|) == 0;
      assert s[0..|s|] == s;
    } else {
      assert RelativeIndex(-(n as int), |s|) == |s| - n;
    }
  }

  /** Appending after keeping the last `n - 1` elements is keeping the last `n` of the append. */
  lemma LastNAppend<T>(s: seq<T>, x: T, n: nat)
    requires n > 0
    ensures LastN(s, n - 1) + [x] == LastN(s + [x], n)
  {
  }

  /** Sliding a window of `n` over an appended element only needs the previous window. */
  lemma LastNWindowAppend<T>(s: seq<T>, x: T, n: nat)
    ensures LastN(LastN(s, n) + [x], n) == LastN(s + [x], n)
  {
  }

  /** A window of the last `n` elements of a longer history only depends on that history's tail. */
  lemma LastNOfLastN<T>(s: seq<T>, m: nat, n: nat)
    requires n <= m
    ensures LastN(LastN(s, m), n) == LastN(s, n)
  {
  }

  function Sum(s: seq<nat>): nat
  {
    if |s| == 0 then 0 else Sum(s[..|s| - 1]) + s[|s| - 1]
  }

  /** The arithmetic mean, 0 for the empty sequence (the source's `length > 0 ? … : 0`). */
  function Mean(s: seq<nat>): (m: real)
    ensures m >= 0.0
    ensures |s| == 0 ==> m == 0.0
    ensures |s| > 0 ==> m * |s| as real == Sum(s) as real
  {
    if |s| == 0 then 0.0 else Sum(s) as real / |s| as real
  }

  lemma {:induction false} SumAppend(a: seq<nat>, b: seq<nat>)
    ensures Sum(a + b) == Sum(a) + Sum(b)
    decreases |b|
  {
    if |b| == 0 {
      assert a + b == a;
    } else {
      var b' := b[..|b| - 1];
      assert (a + b)[..|a + b| - 1] == a + b';
      SumAppend(a, b');
    }
  }

  /** A suffix never sums to more than the whole sequence. */
  lemma SumSuffix(s: seq<nat>, k: nat)
    requires k <= |s|
    ensures Sum(s[k..]) <= Sum(s)
  {
    SumAppend(s[..k], s[k..]);
    assert s[..k] + s[k..] == s;
  }

  /** A sequence of `|s|` equal values `v` sums to `|s| * v`. */
  lemma {:induction false} SumConstant(s: seq<nat>, v: nat)
    requires forall i :: 0 <= i < |s| ==> s[i] == v
    ensures Sum(s) == |s| * v
  {
    if |s| > 0 {
      SumConstant(s[..|s| - 1], v);
    }
  }
}

=== FILE: session.dfy ===
/** The answer cycle of the vocabulary screen: session counters, the hand-off of each
    answer to the lifetime record, and the reset and restart buttons. The fuzzy answer
    matcher is a parameter (its code is not part of this model), the 1.5 s feedback
    delay is left out, and rendering is not modelled. */
module Session {
  import opened Types
  import opened Wrappers
  import JsMath
  import Storage
  import WordManager
  import Seqs
  import Rotator
  import CsvParser

  /** The counters a sitting starts from, and returns to on reset or restart. */
  const ZeroStats: SessionStats := SessionStats(0, 0, 0, 0)

  /** `updateSessionStats`: recompute the accuracy from the counters. */
  function UpdateSessionStats(stats: SessionStats): (r: SessionStats)
    ensures r.correct == stats.correct && r.total == stats.total && r.streak == stats.streak
    ensures stats.total == 0 ==> r.accuracy == 0
    ensures stats.total > 0 ==>
      (2 * r.accuracy - 1) * stats.total <= 200 * stats.correct < (2 * r.accuracy + 1) * stats.total
    ensures stats.correct <= stats.total ==> 0 <= r.accuracy <= 100
  {
    stats.(accuracy := JsMath.RoundedPercent(stats.correct, stats.total))
  }

  /** The session-stats step of `handleAnswerSubmit`: one more answer, one more correct
      one and a longer streak if it was right, the streak broken if it was wrong, and an
      accuracy that agrees with the new counters. */
  function RecordAnswer(stats: SessionStats, isCorrect: bool): (r: SessionStats)
    ensures r.total == stats.total + 1
    ensures isCorrect ==> r.correct == stats.correct + 1 && r.streak == stats.streak + 1
    ensures !isCorrect ==> r.correct == stats.correct && r.streak == 0
    ensures r == UpdateSessionStats(r)
    ensures stats.correct <= stats.total ==> r.correct <= r.total && 0 <= r.accuracy <= 100
  {
    UpdateSessionStats(SessionStats(
      correct := stats.correct + (if isCorrect then 1 else 0),
      total := stats.total + 1,
      accuracy := 0,
      streak := if isCorrect then stats.streak + 1 else 0))
  }

  /** Both records after one judged answer: the lifetime fold receives the new session
      streak and the default hint count of 0. */
  function Submit(stats: SessionStats, progress: UserProgress, isCorrect: bool, now: string)
    : (r: (SessionStats, UserProgress))
    ensures r.0 == RecordAnswer(stats, isCorrect)
    ensures r.1 == Storage.UpdateProgress(progress, isCorrect, r.0.streak, 0, now)
    ensures r.1.currentStreak == r.0.streak
    ensures r.1.bestStreak >= r.0.streak && r.1.bestStreak >= progress.bestStreak
    ensures r.1.totalHintsUsed == progress.totalHintsUsed
    ensures r.1.questionsWithHints == progress.questionsWithHints
    ensures r.1.hintsPerSession[|r.1.hintsPerSession| - 1] == 0
  {
    var s := RecordAnswer(stats, isCorrect);
    (s, Storage.UpdateProgress(progress, isCorrect, s.streak, 0, now))
  }

  datatype Feedback = NoFeedback | CorrectFeedback | IncorrectFeedback

  /** The part of the screen state the answer cycle touches. */
  datatype GameState = GameState(
    currentWord: Option<WordPair>,
    mode: LearningMode,
    feedback: Feedback,
    sessionStats: SessionStats)

  /** The component's state: the game state, the answer revealed after a miss, the
      lifetime record and the word manager (absent until the words are loaded). */
  datatype App = App(
    game: GameState,
    correctAnswer: Option<string>,
    userProgress: UserProgress,
    wordManager: Option<WordManager.Manager>)

  /** `handleAnswerSubmit` up to the delayed advance. Without a current word or a
      manager nothing happens. Otherwise the answer is judged against the side of the
      word not shown, both records are updated, feedback is set, and after a miss the
      expected answer is kept for display. */
  function HandleAnswerSubmit(app: App, userAnswer: string, fuzzyMatch: (string, string) -> bool, now: string)
    : (r: App)
    ensures app.game.currentWord.None? || app.wordManager.None? ==> r == app
    ensures app.game.currentWord.Some? && app.wordManager.Some? ==>
      var expected := WordManager.GetCorrectAnswer(app.game.currentWord.value, app.game.mode);
      var ok := fuzzyMatch(userAnswer, expected);
      && r.game.sessionStats == RecordAnswer(app.game.sessionStats, ok)
      && r.userProgress == Storage.UpdateProgress(app.userProgress, ok, r.game.sessionStats.streak, 0, now)
      && r.game.feedback == (if ok then CorrectFeedback else IncorrectFeedback)
      && r.correctAnswer == (if ok then app.correctAnswer else Some(expected))
      && r.game.currentWord == app.game.currentWord && r.game.mode == app.game.mode
      && r.wordManager == app.wordManager
  {
    if app.game.currentWord.None? || app.wordManager.None? then app
    else
      var expected := WordManager.GetCorrectAnswer(app.game.currentWord.value, app.game.mode);
      var isCorrect := fuzzyMatch(userAnswer, expected);
      var outcome := Submit(app.game.sessionStats, app.userProgress, isCorrect, now);
      App(
        game := app.game.(
          feedback := if isCorrect then CorrectFeedback else IncorrectFeedback,
          sessionStats := outcome.0),
        correctAnswer := if isCorrect then app.correctAnswer else Some(expected),
        userProgress := outcome.1,
        wordManager := app.wordManager)
  }

  /** The delayed second half of `handleAnswerSubmit`: advance the manager, show its
      word, clear the feedback and the revealed answer. */
  method ShowNextWord(app: App, picks: seq<nat>) returns (r: App)
    requires app.wordManager.Some? && Rotator.Valid(app.wordManager.value)
    requires CsvParser.ValidPicks(picks, |app.wordManager.value.items|)
    ensures r.wordManager.Some? && Rotator.Valid(r.wordManager.value)
    ensures r.wordManager.value.items == app.wordManager.value.items
    ensures r.game.currentWord == WordManager.GetCurrentWord(r.wordManager.value)
    ensures |app.wordManager.value.items| > 0 ==> r.game.currentWord.Some?
    ensures |app.wordManager.value.items| > 0 ==>
      && 0 < |r.wordManager.value.recent| <= Rotator.MaxRecent
      && r.wordManager.value.recent[|r.wordManager.value.recent| - 1]
         == app.wordManager.value.shuffled[app.wordManager.value.index]
    ensures |app.wordManager.value.items| > 0 ==>
      r.wordManager.value.recent == Seqs.LastN(
        app.wordManager.value.recent + [app.wordManager.value.shuffled[app.wordManager.value.index]],
        Rotator.MaxRecent)
    ensures |app.wordManager.value.items| > 0 ==>
      && r.wordManager.value.shuffled == Rotator.Advance(app.wordManager.value, picks).shuffled
      && exists k :: Rotator.SkippedTo(Rotator.Advance(app.wordManager.value, picks), WordManager.WordKey, k)
           && r.wordManager.value.index == Rotator.Slot(Rotator.Advance(app.wordManager.value, picks), k)
    ensures r.game.feedback == NoFeedback && r.correctAnswer == None
    ensures r.game.mode == app.game.mode
    ensures r.game.sessionStats == app.game.sessionStats && r.userProgress == app.userProgress
  {
    var m, next := WordManager.GetNextWord(app.wordManager.value, picks);
    r := App(app.game.(currentWord := next, feedback := NoFeedback), None, app.userProgress, Some(m));
  }

  /** `handleModeChange`: switch direction and clear the feedback. Flipping the direction
      makes the text that was displayed the answer now expected. */
  function HandleModeChange(app: App, mode: LearningMode): (r: App)
    ensures r.game.mode == mode && r.game.feedback == NoFeedback
    ensures r.game.currentWord == app.game.currentWord && r.game.sessionStats == app.game.sessionStats
    ensures r.userProgress == app.userProgress && r.wordManager == app.wordManager
    ensures r.correctAnswer == app.correctAnswer
    ensures r.game.currentWord.Some? && mode == WordManager.Flip(app.game.mode) ==>
      WordManager.GetCorrectAnswer(r.game.currentWord.value, mode)
        == WordManager.GetWordToDisplay(r.game.currentWord.value, app.game.mode)
  {
    var r := app.(game := app.game.(mode := mode, feedback := NoFeedback));
    if app.game.currentWord.Some? then
      WordManager.AnswerIsOtherSide(app.game.currentWord.value, mode);
      r
    else
      r
  }

  /** `handleResetProgress`: the lifetime record goes back to the default one and the
      four session counters to zero. */
  function HandleResetProgress(app: App, loadedAt: string): (r: App)
    ensures r.userProgress == Storage.ResetProgress(loadedAt)
    ensures Storage.Valid(r.userProgress)
    ensures r.userProgress.totalAnswers == 0 && r.userProgress.bestStreak == 0
    ensures Storage.GetAccuracy(r.userProgress) == 0
    ensures r.game.sessionStats.correct == 0 && r.game.sessionStats.total == 0
    ensures r.game.sessionStats.accuracy == 0 && r.game.sessionStats.streak == 0
    ensures r.game.currentWord == app.game.currentWord && r.wordManager == app.wordManager
    ensures r.game.mode == app.game.mode && r.game.feedback == app.game.feedback
    ensures r.correctAnswer == app.correctAnswer
  {
    app.(userProgress := Storage.ResetProgress(loadedAt), game := app.game.(sessionStats := ZeroStats))
  }

  /** `handleRestartSession`: with a manager, reshuffle it, show its first word, clear
      the feedback and zero the session counters; the lifetime record is kept. */
  function HandleRestartSession(app: App, picks: seq<nat>): (r: App)
    requires app.wordManager.Some? ==> CsvParser.ValidPicks(picks, |app.wordManager.value.items|)
    ensures app.wordManager.None? ==> r == app
    ensures app.wordManager.Some? ==>
      && r.wordManager.Some? && Rotator.Valid(r.wordManager.value)
      && r.wordManager.value.items == app.wordManager.value.items
      && r.wordManager.value.index == 0 && r.wordManager.value.recent == []
      && r.game.currentWord == WordManager.GetCurrentWord(r.wordManager.value)
      && r.game.feedback == NoFeedback
      && r.game.sessionStats.correct == 0 && r.game.sessionStats.total == 0
      && r.game.sessionStats.accuracy == 0 && r.game.sessionStats.streak == 0
      && r.userProgress == app.userProgress
    ensures r.game.mode == app.game.mode && r.correctAnswer == app.correctAnswer
  {
    match app.wordManager
    case None => app
    case Some(m) =>
      var restarted := WordManager.Reset(m, picks);
      App(
        app.game.(currentWord := WordManager.GetCurrentWord(restarted), feedback := NoFeedback, sessionStats := ZeroStats),
        app.correctAnswer,
        app.userProgress,
        Some(restarted))
  }

  // A sitting as a sequence of judged answers.

  /** The session counters after a sequence of answers, oldest first. */
  function PlaySession(stats: SessionStats, answers: seq<bool>): SessionStats
  {
    if |answers| == 0 then stats
    else RecordAnswer(PlaySession(stats, answers[..|answers| - 1]), answers[|answers| - 1])
  }

  /** Both records after a sequence of answers. */
  function Play(stats: SessionStats, progress: UserProgress, answers: seq<bool>, now: string)
    : (SessionStats, UserProgress)
  {
    if |answers| == 0 then (stats, progress)
    else
      var before := Play(stats, progress, answers[..|answers| - 1], now);
      Submit(before.0, before.1, answers[|answers| - 1], now)
  }

  /** The number of right answers in a sitting given as verdicts. */
  function CountRight(answers: seq<bool>): nat
  {
    if |answers| == 0 then 0
    else CountRight(answers[..|answers| - 1]) + (if answers[|answers| - 1] then 1 else 0)
  }

  /** The number of correct answers at the end of the sequence. */
  function TrailingCorrect(answers: seq<bool>): (t: nat)
    ensures t <= |answers|
  {
    if |answers| == 0 || !answers[|answers| - 1] then 0
    else TrailingCorrect(answers[..|answers| - 1]) + 1
  }

  /** The length of the longest unbroken run of correct answers. */
  function LongestRun(answers: seq<bool>): (l: nat)
    ensures l <= |answers|
  {
    if |answers| == 0 then 0
    else JsMath.Max(LongestRun(answers[..|answers| - 1]), TrailingCorrect(answers))
  }

  ghost predicate AllCorrect(answers: seq<bool>, i: nat, j: nat)
    requires i <= j <= |answers|
  {
    forall k :: i <= k < j ==> answers[k]
  }

  /** The counters after a sitting: every answer counted, every correct one counted, never
      more correct than total, and the streak is the run of correct answers at the end
      (carried over from before the sequence only if that run is the whole sequence). */
  lemma {:induction false} SessionCounts(stats: SessionStats, answers: seq<bool>)
    requires stats.correct <= stats.total
    ensures PlaySession(stats, answers).total == stats.total + |answers|
    ensures PlaySession(stats, answers).correct == stats.correct + CountRight(answers)
    ensures PlaySession(stats, answers).correct <= PlaySession(stats, answers).total
    ensures PlaySession(stats, answers).streak ==
      if TrailingCorrect(answers) == |answers| then stats.streak + |answers| else TrailingCorrect(answers)
  {
    if |answers| > 0 {
      SessionCounts(stats, answers[..|answers| - 1]);
    }
  }

  /** The trailing run is made of correct answers. */
  lemma {:induction false} TrailingRunCorrect(answers: seq<bool>)
    ensures AllCorrect(answers, |answers| - TrailingCorrect(answers), |answers|)
  {
    if |answers| > 0 && answers[|answers| - 1] {
      var prefix := answers[..|answers| - 1];
      TrailingRunCorrect(prefix);
      forall k | |answers| - TrailingCorrect(answers) <= k < |answers|
        ensures answers[k]
      {
        if k < |answers| - 1 {
          assert answers[k] == prefix[k];
        }
      }
    }
  }

  /** A run of correct answers reaching the end is no longer than the trailing run. */
  lemma {:induction false} TrailingRunMaximal(answers: seq<bool>, i: nat)
    requires i <= |answers| && AllCorrect(answers, i, |answers|)
    ensures |answers| - i <= TrailingCorrect(answers)
  {
    if i < |answers| {
      var prefix := answers[..|answers| - 1];
      assert AllCorrect(prefix, i, |prefix|) by {
        forall k | i <= k < |prefix|
          ensures prefix[k]
        {
          assert prefix[k] == answers[k];
        }
      }
      TrailingRunMaximal(prefix, i);
    }
  }

  /** No run of correct answers is longer than `LongestRun`. */
  lemma {:induction false} LongestRunIsLongest(answers: seq<bool>, i: nat, j: nat)
    requires i <= j <= |answers| && AllCorrect(answers, i, j)
    ensures j - i <= LongestRun(answers)
  {
    if j == |answers| {
      TrailingRunMaximal(answers, i);
    } else {
      var prefix := answers[..|answers| - 1];
      assert AllCorrect(prefix, i, j) by {
        forall k | i <= k < j
          ensures prefix[k]
        {
          assert prefix[k] == answers[k];
        }
      }
      LongestRunIsLongest(prefix, i, j);
    }
  }

  /** A run of `len` correct answers starts at position `i`. */
  ghost predicate RunAt(answers: seq<bool>, i: int, len: nat)
  {
    0 <= i && i + len <= |answers| && AllCorrect(answers, i, i + len)
  }

  /** Some run of correct answers is exactly `LongestRun` long. */
  lemma {:induction false} LongestRunIsReached(answers: seq<bool>)
    ensures exists i :: RunAt(answers, i, LongestRun(answers))
  {
    var l := LongestRun(answers);
    if |answers| == 0 {
      assert RunAt(answers, 0, l);
    } else if l == TrailingCorrect(answers) {
      TrailingRunCorrect(answers);
      assert RunAt(answers, |answers| - l, l);
    } else {
      var prefix := answers[..|answers| - 1];
      assert l == LongestRun(prefix);
      LongestRunIsReached(prefix);
      var i :| RunAt(prefix, i, l);
      assert RunAt(answers, i, l) by {
        forall k | i <= k < i + l
          ensures answers[k]
        {
          assert prefix[k] == answers[k];
        }
      }
    }
  }

  /** Over a sitting that starts with no streak, the session streak is the trailing run
      and the lifetime best streak becomes the longer of its old value and the longest
      run of correct answers in the sitting. */
  lemma {:induction false} BestStreakIsLongestRun(stats: SessionStats, progress: UserProgress,
                                                   answers: seq<bool>, now: string)
    requires stats.streak == 0
    ensures Play(stats, progress, answers, now).0.streak == TrailingCorrect(answers)
    ensures Play(stats, progress, answers, now).1.bestStreak == JsMath.Max(progress.bestStreak, LongestRun(answers))
  {
    if |answers| > 0 {
      BestStreakIsLongestRun(stats, progress, answers[..|answers| - 1], now);
    }
  }

  /** After a progress reset, a sitting's streak is its trailing run of correct answers and
      the lifetime best streak is exactly its longest run. */
  lemma {:induction false} ResetThenLongestRun(app: App, loadedAt: string, answers: seq<bool>, now: string)
    ensures var r := HandleResetProgress(app, loadedAt);
      var after := Play(r.game.sessionStats, r.userProgress, answers, now);
      && after.0.streak == TrailingCorrect(answers)
      && after.1.bestStreak == LongestRun(answers)
  {
    var r := HandleResetProgress(app, loadedAt);
    BestStreakIsLongestRun(r.game.sessionStats, r.userProgress, answers, now);
  }
}

=== FILE: storage.dfy ===
/** The lifetime progress record: the per-answer fold and the views derived from it.
    Writing the record to local storage is a side effect with no bearing on the returned
    value and is not part of this model. */
module Storage {
  import opened Types
  import JsMath
  import Seqs

  /** `hintsPerSession` keeps the hint counts of the last ten answered questions. */
  const MaxHintHistory: nat := 10

  /** The trend compares the mean of the last five counts with the five before them. */
  const TrendWindow: nat := 5

  /** What every fold from the default record keeps true. */
  ghost predicate Valid(p: UserProgress)
  {
    && p.correctAnswers <= p.totalAnswers
    && p.wordsLearned == p.correctAnswers
    && p.questionsWithHints <= p.totalAnswers
    && p.questionsWithHints <= p.totalHintsUsed
    && p.currentStreak <= p.bestStreak
    && |p.hintsPerSession| <= MaxHintHistory
    && |p.hintsPerSession| <= p.totalAnswers
    && Seqs.Sum(p.hintsPerSession) <= p.totalHintsUsed
  }

  /** The record a first visit starts from. `loadedAt` is the clock reading taken once,
      when the storage module is loaded. */
  function DefaultProgress(loadedAt: string): (r: UserProgress)
    ensures Valid(r) && r.lastSessionDate == loadedAt
    ensures r.totalAnswers == 0 && r.correctAnswers == 0 && r.wordsLearned == 0
    ensures r.currentStreak == 0 && r.bestStreak == 0
    ensures r.totalHintsUsed == 0 && r.questionsWithHints == 0 && r.hintsPerSession == []
  {
    UserProgress(0, 0, 0, 0, 0, loadedAt, 0, 0, [])
  }

  /** Folds one answered question into the lifetime record. `currentStreak` is the
      caller's streak after this answer; `now` is the clock reading for the answer. */
  function UpdateProgress(p: UserProgress, isCorrect: bool, currentStreak: nat,
                          hintsUsedForQuestion: nat, now: string): (r: UserProgress)
    ensures r.totalAnswers == p.totalAnswers + 1
    ensures isCorrect ==> r.correctAnswers == p.correctAnswers + 1 && r.wordsLearned == p.wordsLearned + 1
    ensures !isCorrect ==> r.correctAnswers == p.correctAnswers && r.wordsLearned == p.wordsLearned
    ensures r.currentStreak == (if isCorrect then currentStreak else 0)
    ensures r.bestStreak >= p.bestStreak && r.bestStreak >= r.currentStreak
    ensures r.bestStreak == p.bestStreak || r.bestStreak == r.currentStreak
    ensures r.totalHintsUsed == p.totalHintsUsed + hintsUsedForQuestion
    ensures hintsUsedForQuestion > 0 ==> r.questionsWithHints == p.questionsWithHints + 1
    ensures hintsUsedForQuestion == 0 ==> r.questionsWithHints == p.questionsWithHints
    ensures r.hintsPerSession == Seqs.LastN(p.hintsPerSession + [hintsUsedForQuestion], MaxHintHistory)
    ensures r.lastSessionDate == now
    ensures Valid(p) ==> Valid(r)
  {
    var streak := if isCorrect then currentStreak else 0;
    var history := Seqs.Slice(p.hintsPerSession, -9, |p.hintsPerSession|);
    var r := UserProgress(
      correctAnswers := p.correctAnswers + (if isCorrect then 1 else 0),
      totalAnswers := p.totalAnswers + 1,
      currentStreak := streak,
      bestStreak := JsMath.Max(p.bestStreak, streak),
      wordsLearned := p.wordsLearned + (if isCorrect then 1 else 0),
      lastSessionDate := now,
      totalHintsUsed := p.totalHintsUsed + hintsUsedForQuestion,
      questionsWithHints := p.questionsWithHints + (if hintsUsedForQuestion > 0 then 1 else 0),
      hintsPerSession := history + [hintsUsedForQuestion]);
    Seqs.SliceFromEnd(p.hintsPerSession, MaxHintHistory - 1);
    Seqs.LastNAppend(p.hintsPerSession, hintsUsedForQuestion, MaxHintHistory);
    HistorySum(p.hintsPerSession, hintsUsedForQuestion);
    r
  }

  /** The kept history never sums to more than what was dropped from it plus the new count. */
  lemma HistorySum(h: seq<nat>, x: nat)
    ensures Seqs.Sum(Seqs.LastN(h, MaxHintHistory - 1) + [x]) <= Seqs.Sum(h) + x
  {
    var kept := Seqs.LastN(h, MaxHintHistory - 1);
    Seqs.SumAppend(kept, [x]);
    assert Seqs.Sum([x]) == x by {
      assert [x][..0] == [];
    }
    Seqs.SumSuffix(h, |h| - |kept|);
  }

  /** Resetting hands back a copy of the default record (whose date is the module-load
      time, not the time of the reset). */
  function ResetProgress(loadedAt: string): (r: UserProgress)
    ensures Valid(r)
    ensures r.lastSessionDate == loadedAt
    ensures r.totalAnswers == 0 && r.correctAnswers == 0 && r.wordsLearned == 0
    ensures r.currentStreak == 0 && r.bestStreak == 0
    ensures r.totalHintsUsed == 0 && r.questionsWithHints == 0 && r.hintsPerSession == []
    ensures GetAccuracy(r) == 0
    ensures GetHintStats(r) == HintStats(0.0, 0, 0)
  {
    DefaultProgress(loadedAt)
  }

  /** Lifetime accuracy as a whole percentage. */
  function GetAccuracy(p: UserProgress): (r: int)
    ensures p.totalAnswers == 0 ==> r == 0
    ensures p.totalAnswers > 0 ==>
      (2 * r - 1) * p.totalAnswers <= 200 * p.correctAnswers < (2 * r + 1) * p.totalAnswers
    ensures p.correctAnswers <= p.totalAnswers ==> 0 <= r <= 100
  {
    JsMath.RoundedPercent(p.correctAnswers, p.totalAnswers)
  }

  /** Seven right out of ten is 70 percent. */
  lemma AccuracySevenOfTen(p: UserProgress)
    requires p.correctAnswers == 7 && p.totalAnswers == 10
    ensures GetAccuracy(p) == 70
  {
    var r := GetAccuracy(p);
    assert (2 * r - 1) * 10 <= 1400 < (2 * r + 1) * 10;
  }

  datatype HintStats = HintStats(averageHintsPerQuestion: real, hintUsagePercentage: int, recentHintTrend: int)

  /** The most recent (up to) five hint counts: `hintsPerSession.slice(-5)`. */
  function RecentWindow(h: seq<nat>): (r: seq<nat>)
    ensures r == Seqs.LastN(h, 5)
  {
    Seqs.SliceFromEnd(h, 5);
    Seqs.Slice(h, -5, |h|)
  }

  /** The (up to) five counts before those: `hintsPerSession.slice(-10, -5)`. */
  function PreviousWindow(h: seq<nat>): seq<nat>
  {
    Seqs.Slice(h, -10, -5)
  }

  /** The two windows side by side are the last ten counts: the earlier window is exactly
      what comes before the recent one among them. */
  lemma WindowsAreLastTen(h: seq<nat>)
    ensures PreviousWindow(h) + RecentWindow(h) == Seqs.LastN(h, 10)
  {
    var b := Seqs.RelativeIndex(-10, |h|);
    var e := Seqs.RelativeIndex(-5, |h|);
    if |h| <= 5 {
      assert PreviousWindow(h) == [];
    } else {
      assert PreviousWindow(h) == h[b..e];
      assert RecentWindow(h) == h[e..];
      assert h[b..e] + h[e..] == h[b..];
    }
  }

  /** Relative change of the recent mean against the previous one, in whole percent;
      0 when there is no previous mean to compare with. */
  function HintTrend(h: seq<nat>): (t: int)
    ensures |PreviousWindow(h)| == 0 || Seqs.Mean(PreviousWindow(h)) == 0.0 ==> t == 0
    ensures Seqs.Mean(RecentWindow(h)) >= Seqs.Mean(PreviousWindow(h)) ==> t >= 0
    ensures Seqs.Mean(RecentWindow(h)) <= Seqs.Mean(PreviousWindow(h)) ==> t <= 0
    ensures t > 0 ==> Seqs.Mean(RecentWindow(h)) > Seqs.Mean(PreviousWindow(h))
    ensures t < 0 ==> Seqs.Mean(RecentWindow(h)) < Seqs.Mean(PreviousWindow(h))
    ensures t >= -100
    ensures Seqs.Mean(PreviousWindow(h)) > 0.0 ==>
      NearestChange(t, Seqs.Mean(RecentWindow(h)), Seqs.Mean(PreviousWindow(h)))
  {
    RelativeChange(Seqs.Mean(RecentWindow(h)), Seqs.Mean(PreviousWindow(h)))
  }

  /** `previous > 0 ? Math.round((recent - previous) / previous * 100) : 0` for two means:
      the whole percentage nearest to the relative change, with its sign, never below -100. */
  function RelativeChange(recent: real, previous: real): (t: int)
    requires recent >= 0.0
    ensures previous <= 0.0 ==> t == 0
    ensures recent >= previous ==> t >= 0
    ensures recent <= previous ==> t <= 0
    ensures t >= -100
    ensures previous > 0.0 ==> NearestChange(t, recent, previous)
  {
    if previous > 0.0 then
      var change := (recent - previous) / previous * 100.0;
      TrendSign(recent, previous);
      var t := JsMath.Round(change);
      TrendValue(recent, previous, t);
      t
    else
      0
  }

  /** `t` is the whole percentage nearest to the change from `previous` to `recent`, halves
      rounded up: `t - 1/2 <= (recent - previous) / previous * 100 < t + 1/2`, with the
      positive denominator cleared. */
  ghost predicate NearestChange(t: int, recent: real, previous: real)
  {
    (t as real - 0.5) * previous <= (recent - previous) * 100.0 < (t as real + 0.5) * previous
  }

  /** Clearing the denominator of `t - 1/2 <= (recent - previous) / previous * 100 < t + 1/2`. */
  lemma TrendValue(recent: real, previous: real, t: int)
    requires previous > 0.0
    requires t as real - 0.5 <= (recent - previous) / previous * 100.0 < t as real + 0.5
    ensures NearestChange(t, recent, previous)
  {
    var change := (recent - previous) / previous * 100.0;
    var scaled := change * previous;
    assert scaled == (recent - previous) * 100.0;
    JsMath.ScaleReal(t as real - 0.5, change, previous);
    JsMath.ScaleRealStrict(change, t as real + 0.5, previous);
    assert scaled < (t as real + 0.5) * previous;
  }

  /** The relative change has the sign of `recent - previous` and is at least -100. */
  lemma TrendSign(recent: real, previous: real)
    requires recent >= 0.0 && previous > 0.0
    ensures var change := (recent - previous) / previous * 100.0;
      && (recent >= previous ==> change >= 0.0)
      && (recent <= previous ==> change <= 0.0)
      && change >= -100.0
  {
    var d := (recent - previous) / previous;
    assert d * previous == recent - previous;
    assert d >= -1.0 by {
      if d < -1.0 {
        ScaleBelow(d, previous);
      }
    }
  }

  lemma ScaleBelow(d: real, p: real)
    requires d < -1.0 && p > 0.0
    ensures d * p < -p
  {
  }

  /** The three hint figures of the statistics panel. */
  function GetHintStats(p: UserProgress): (s: HintStats)
    ensures p.totalAnswers == 0 ==> s.averageHintsPerQuestion == 0.0 && s.hintUsagePercentage == 0
    ensures p.totalAnswers > 0 ==>
      var exact := p.totalHintsUsed as real / p.totalAnswers as real;
      exact - 0.005 < s.averageHintsPerQuestion <= exact + 0.005
    ensures p.totalAnswers > 0 ==>
      (2 * s.hintUsagePercentage - 1) * p.totalAnswers <= 200 * p.questionsWithHints
      < (2 * s.hintUsagePercentage + 1) * p.totalAnswers
    ensures p.questionsWithHints <= p.totalAnswers ==> 0 <= s.hintUsagePercentage <= 100
    ensures s.recentHintTrend == HintTrend(p.hintsPerSession)
  {
    HintStats(
      averageHintsPerQuestion := AverageHundredths(p.totalHintsUsed, p.totalAnswers),
      hintUsagePercentage := JsMath.RoundedPercent(p.questionsWithHints, p.totalAnswers),
      recentHintTrend := HintTrend(p.hintsPerSession))
  }

  /** `Math.round(average * 100) / 100` of `hints / answers` (0 with no answers): within half
      a hundredth of the exact quotient. */
  function AverageHundredths(hints: nat, answers: nat): (a: real)
    ensures answers == 0 ==> a == 0.0
    ensures answers > 0 ==>
      var exact := hints as real / answers as real;
      exact - 0.005 < a <= exact + 0.005
  {
    var average := if answers > 0 then hints as real / answers as real else 0.0;
    var rounded := JsMath.Round(average * 100.0);
    HundredthsClose(average, rounded);
    rounded as real / 100.0
  }

  /** Rounding to hundredths moves a value by at most half a hundredth. */
  lemma HundredthsClose(x: real, r: int)
    requires r as real - 0.5 <= x * 100.0 < r as real + 0.5
    ensures x - 0.005 < r as real / 100.0 <= x + 0.005
  {
  }

  /** Five questions without hints followed by five with two each: the previous mean is
      0, so the code reports no trend at all rather than a rise. */
  lemma TrendAfterHintFreeStart()
    ensures HintTrend([0, 0, 0, 0, 0, 2, 2, 2, 2, 2]) == 0
  {
    var h: seq<nat> := [0, 0, 0, 0, 0, 2, 2, 2, 2, 2];
    assert PreviousWindow(h) == [0, 0, 0, 0, 0];
    Seqs.SumConstant(PreviousWindow(h), 0);
  }

  /** Five questions with two hints each followed by five without: a 100 percent drop. */
  lemma TrendAfterHintsStop()
    ensures HintTrend([2, 2, 2, 2, 2, 0, 0, 0, 0, 0]) == -100
  {
    var h: seq<nat> := [2, 2, 2, 2, 2, 0, 0, 0, 0, 0];
    assert PreviousWindow(h) == [2, 2, 2, 2, 2];
    assert RecentWindow(h) == [0, 0, 0, 0, 0];
    Seqs.SumConstant(PreviousWindow(h), 2);
    Seqs.SumConstant(RecentWindow(h), 0);
  }

  /** One answered question as the fold sees it. */
  datatype Answer = Answer(isCorrect: bool, streak: nat, hints: nat, at: string)

  /** Folds a whole history of answers, oldest first. */
  function FoldProgress(p: UserProgress, answers: seq<Answer>): UserProgress
    decreases |answers|
  {
    if |answers| == 0 then p
    else
      var a := answers[|answers| - 1];
      UpdateProgress(FoldProgress(p, answers[..|answers| - 1]), a.isCorrect, a.streak, a.hints, a.at)
  }

  function CountCorrect(answers: seq<Answer>): nat
  {
    if |answers| == 0 then 0
    else CountCorrect(answers[..|answers| - 1]) + (if answers[|answers| - 1].isCorrect then 1 else 0)
  }

  function HintsOf(answers: seq<Answer>): (h: seq<nat>)
    ensures |h| == |answers|
    ensures forall i :: 0 <= i < |answers| ==> h[i] == answers[i].hints
  {
    if |answers| == 0 then [] else HintsOf(answers[..|answers| - 1]) + [answers[|answers| - 1].hints]
  }

  /** The counters after a history of answers: one more answer each, one more correct
      answer (and word learned) per correct one. */
  lemma {:induction false} FoldCounters(p: UserProgress, answers: seq<Answer>)
    ensures FoldProgress(p, answers).totalAnswers == p.totalAnswers + |answers|
    ensures FoldProgress(p, answers).correctAnswers == p.correctAnswers + CountCorrect(answers)
    ensures FoldProgress(p, answers).wordsLearned == p.wordsLearned + CountCorrect(answers)
    decreases |answers|
  {
    if |answers| > 0 {
      FoldCounters(p, answers[..|answers| - 1]);
    }
  }

  /** The best streak never goes down, and it records every streak reached by a correct answer. */
  lemma {:induction false} FoldBestStreak(p: UserProgress, answers: seq<Answer>)
    ensures FoldProgress(p, answers).bestStreak >= p.bestStreak
    ensures forall i :: 0 <= i < |answers| && answers[i].isCorrect ==>
      FoldProgress(p, answers).bestStreak >= answers[i].streak
    decreases |answers|
  {
    if |answers| > 0 {
      var prefix := answers[..|answers| - 1];
      FoldBestStreak(p, prefix);
      forall i | 0 <= i < |answers| - 1 && answers[i].isCorrect
        ensures FoldProgress(p, answers).bestStreak >= answers[i].streak
      {
        assert prefix[i] == answers[i];
      }
    }
  }

  /** After at least one answer the history holds the hint counts of the last ten answers
      of the whole record, older stored counts included. */
  lemma {:induction false} FoldHistory(p: UserProgress, answers: seq<Answer>)
    requires |answers| > 0
    ensures FoldProgress(p, answers).hintsPerSession
         == Seqs.LastN(p.hintsPerSession + HintsOf(answers), MaxHintHistory)
    decreases |answers|
  {
    var n := |answers|;
    var prefix := answers[..n - 1];
    var x := answers[n - 1].hints;
    var whole := p.hintsPerSession + HintsOf(prefix);
    assert p.hintsPerSession + HintsOf(answers) == whole + [x];
    if n == 1 {
      assert prefix == [];
      assert whole == p.hintsPerSession;
    } else {
      FoldHistory(p, prefix);
      Seqs.LastNWindowAppend(whole, x, MaxHintHistory);
    }
  }

  /** Every fold from the default record stays consistent. */
  lemma {:induction false} FoldValid(p: UserProgress, answers: seq<Answer>)
    requires Valid(p)
    ensures Valid(FoldProgress(p, answers))
    decreases |answers|
  {
    if |answers| > 0 {
      FoldValid(p, answers[..|answers| - 1]);
    }
  }
}

=== FILE: types.dfy ===
/** The records the session engine works on. */
module Types {

  /** A vocabulary item: the same concept in Dutch and in English. */
  datatype WordPair = WordPair(dutch: string, english: string)

  /** A verb item: its English infinitive (what is shown) and four Dutch forms (what is asked). */
  datatype VerbPair = VerbPair(
    englishInfinitive: string,
    dutchInfinitive: string,
    imperfectumSingle: string,
    imperfectumPlural: string,
    perfectum: string)

  /** Which Dutch form of a verb a question asks for. */
  datatype VerbForm = DutchInfinitive | ImperfectumSingle | ImperfectumPlural | Perfectum

  /** `'nl-en'` shows Dutch and asks for English; `'en-nl'` the reverse. */
  datatype LearningMode = NlEn | EnNl

  /** The per-sitting counters shown next to the card. */
  datatype SessionStats = SessionStats(correct: nat, total: nat, accuracy: int, streak: nat)

  /** The durable lifetime record, in the extended shape the storage layer builds: the
      answer counters plus the hint counters and a bounded per-question hint history. */
  datatype UserProgress = UserProgress(
    correctAnswers: nat,
    totalAnswers: nat,
    currentStreak: nat,
    bestStreak: nat,
    wordsLearned: nat,
    lastSessionDate: string,
    totalHintsUsed: nat,
    questionsWithHints: nat,
    hintsPerSession: seq<nat>)
}

=== FILE: verbmanager.dfy ===
/** The verb rotator: verbs are the same when their English infinitives match. Also the
    choice of which Dutch form a question asks for, and that form's answer and label. */
module VerbManager {
  import opened Types
  import opened Wrappers
  import Seqs
  import Rotator
  import CsvParser

  type Manager = Rotator.State<VerbPair>

  /** The identity `getNextVerb` compares: the English infinitive only. */
  function VerbKey(v: VerbPair): string
  {
    v.englishInfinitive
  }

  /** Whether some recently shown verb has the same English infinitive as `v`. */
  predicate MatchesRecentVerb(recent: seq<VerbPair>, v: VerbPair)
  {
    exists i :: 0 <= i < |recent| && recent[i].englishInfinitive == v.englishInfinitive
  }

  lemma RecentVerbIsRecentKey(recent: seq<VerbPair>, v: VerbPair)
    ensures Rotator.IsRecent(recent, VerbKey, v) <==> MatchesRecentVerb(recent, v)
  {
    if MatchesRecentVerb(recent, v) {
      var i :| 0 <= i < |recent| && recent[i].englishInfinitive == v.englishInfinitive;
      assert VerbKey(recent[i]) == VerbKey(v);
    }
  }

  /** The constructor: the given verbs in a shuffled order, cursor at the start. */
  function NewVerbManager(verbs: seq<VerbPair>, picks: seq<nat>): (m: Manager)
    requires CsvParser.ValidPicks(picks, |verbs|)
    ensures Rotator.Valid(m) && m.items == verbs && m.index == 0 && m.recent == []
    ensures multiset(m.shuffled) == multiset(verbs)
  {
    Rotator.New(verbs, picks)
  }

  /** `getCurrentVerb`: `None` exactly when there are no verbs. */
  function GetCurrentVerb(m: Manager): (r: Option<VerbPair>)
    requires Rotator.Valid(m)
    ensures r.None? <==> |m.items| == 0
    ensures r.Some? ==> r.value == m.shuffled[m.index] && r.value in m.items
  {
    Rotator.Current(m)
  }

  /** `getNextVerb`. The order is advanced (reshuffled at its end) and the cursor stops
      where the skip loop stops; the verb returned is the new current verb; the window
      ends with the verb that was current; and with more than five verbs a returned verb sharing its
      English infinitive with a recent one is only accepted after every one of the
      `min(10, n)` positions the skip loop looked at held such a verb. */
  method GetNextVerb(m: Manager, picks: seq<nat>) returns (m': Manager, r: Option<VerbPair>)
    requires Rotator.Valid(m) && CsvParser.ValidPicks(picks, |m.items|)
    ensures Rotator.Valid(m') && m'.items == m.items
    ensures r == GetCurrentVerb(m')
    ensures r.None? <==> |m.items| == 0
    ensures |m.items| > 0 ==>
      && 0 < |m'.recent| <= Rotator.MaxRecent
      && m'.recent[|m'.recent| - 1] == m.shuffled[m.index]
    ensures |m.items| > 0 ==> m'.recent == Seqs.LastN(m.recent + [m.shuffled[m.index]], Rotator.MaxRecent)
    ensures |m.items| > 0 ==> m'.shuffled == Rotator.Advance(m, picks).shuffled
    ensures |m.items| > 0 ==>
      exists k :: Rotator.SkippedTo(Rotator.Advance(m, picks), VerbKey, k)
        && m'.index == Rotator.Slot(Rotator.Advance(m, picks), k)
    ensures 0 < |m.items| <= Rotator.MaxRecent ==> m'.index == Rotator.Advance(m, picks).index
    ensures |m.items| > Rotator.MaxRecent && r.Some? && MatchesRecentVerb(m'.recent, r.value) ==>
      forall j :: 0 <= j < Rotator.Attempts(|m.items|) ==>
        MatchesRecentVerb(m'.recent, Rotator.Candidate(Rotator.Advance(m, picks), j))
  {
    m', r := Rotator.Next(m, VerbKey, picks);
    if |m.items| > Rotator.MaxRecent && r.Some? && MatchesRecentVerb(m'.recent, r.value) {
      RecentVerbIsRecentKey(m'.recent, r.value);
      forall j | 0 <= j < Rotator.Attempts(|m.items|)
        ensures MatchesRecentVerb(m'.recent, Rotator.Candidate(Rotator.Advance(m, picks), j))
      {
        RecentVerbIsRecentKey(m'.recent, Rotator.Candidate(Rotator.Advance(m, picks), j));
      }
    }
  }

  /** The forms in the order `getRandomVerbForm` lists them. */
  const Forms: seq<VerbForm> := [DutchInfinitive, ImperfectumSingle, ImperfectumPlural, Perfectum]

  /** `getRandomVerbForm`, with `random` the value `Math.random()` produced: the unit
      interval is cut into four quarters, one per form, so each form is equally likely. */
  function GetRandomVerbForm(random: real): (f: VerbForm)
    requires 0.0 <= random < 1.0
    ensures forall i :: 0 <= i < |Forms| ==>
      (f == Forms[i] <==> i as real / 4.0 <= random < (i + 1) as real / 4.0)
  {
    var i := (random * 4.0).Floor;
    assert 0 <= i < 4;
    Forms[i]
  }

  /** `getVerbToDisplay`: a verb is always shown by its English infinitive. */
  function GetVerbToDisplay(v: VerbPair): string
  {
    v.englishInfinitive
  }

  /** The property name a form stands for in the source's verb records. */
  function FieldName(f: VerbForm): string
  {
    match f
    case DutchInfinitive => "dutch_infinitive"
    case ImperfectumSingle => "imperfectum_single"
    case ImperfectumPlural => "imperfectum_plural"
    case Perfectum => "perfectum"
  }

  /** A verb record read as the source's object: property name to value. */
  function Fields(v: VerbPair): map<string, string>
  {
    map[
      "english_infinitive" := v.englishInfinitive,
      "dutch_infinitive" := v.dutchInfinitive,
      "imperfectum_single" := v.imperfectumSingle,
      "imperfectum_plural" := v.imperfectumPlural,
      "perfectum" := v.perfectum]
  }

  /** `getCorrectAnswer`: `verb[form]`, the property the form names, which is never the
      displayed English infinitive. */
  function GetCorrectAnswer(v: VerbPair, f: VerbForm): (answer: string)
    ensures FieldName(f) in Fields(v) && answer == Fields(v)[FieldName(f)]
    ensures FieldName(f) != "english_infinitive"
  {
    match f
    case DutchInfinitive => v.dutchInfinitive
    case ImperfectumSingle => v.imperfectumSingle
    case ImperfectumPlural => v.imperfectumPlural
    case Perfectum => v.perfectum
  }

  /** `getVerbFormLabel`: a non-empty label per form, no two forms sharing one. */
  function GetVerbFormLabel(f: VerbForm): (text: string)
    ensures |text| > 0
  {
    match f
    case DutchInfinitive => "Dutch infinitive"
    case ImperfectumSingle => "Imperfectum (single)"
    case ImperfectumPlural => "Imperfectum (plural)"
    case Perfectum => "Perfectum"
  }

  /** Different forms get different labels. */
  lemma VerbFormLabelsDistinct(f: VerbForm, g: VerbForm)
    ensures f != g ==> GetVerbFormLabel(f) != GetVerbFormLabel(g)
  {
  }

  /** `getTotalVerbsCount`: the number of verbs loaded, however often they were reshuffled. */
  function GetTotalVerbsCount(m: Manager): (n: nat)
    ensures Rotator.Valid(m) ==> n == |m.shuffled|
    ensures Rotator.Valid(m) ==> (n == 0 <==> GetCurrentVerb(m).None?)
  {
    Rotator.TotalCount(m)
  }

  /** `reset`: a fresh shuffle of the same verbs, cursor at the start, empty window. */
  function Reset(m: Manager, picks: seq<nat>): (m': Manager)
    requires CsvParser.ValidPicks(picks, |m.items|)
    ensures Rotator.Valid(m') && m'.items == m.items && m'.index == 0 && m'.recent == []
    ensures GetCurrentVerb(m') == (if |m.items| == 0 then None else Some(m'.shuffled[0]))
  {
    Rotator.Reset(m, picks)
  }
}

=== FILE: wordmanager.dfy ===
/** The vocabulary rotator: words are the same when both their Dutch and English match. */
module WordManager {
  import opened Types
  import opened Wrappers
  import Seqs
  import Rotator
  import CsvParser

  type Manager = Rotator.State<WordPair>

  /** The identity `getNextWord` compares: both fields. */
  function WordKey(w: WordPair): (string, string)
  {
    (w.dutch, w.english)
  }

  /** Whether some recently shown word has the same Dutch and the same English as `w`. */
  predicate MatchesRecentWord(recent: seq<WordPair>, w: WordPair)
  {
    exists i :: 0 <= i < |recent| && recent[i].dutch == w.dutch && recent[i].english == w.english
  }

  lemma RecentWordIsRecentKey(recent: seq<WordPair>, w: WordPair)
    ensures Rotator.IsRecent(recent, WordKey, w) <==> MatchesRecentWord(recent, w)
  {
    if MatchesRecentWord(recent, w) {
      var i :| 0 <= i < |recent| && recent[i].dutch == w.dutch && recent[i].english == w.english;
      assert WordKey(recent[i]) == WordKey(w);
    }
  }

  /** The constructor: the given words in a shuffled order, cursor at the start. */
  function NewWordManager(words: seq<WordPair>, picks: seq<nat>): (m: Manager)
    requires CsvParser.ValidPicks(picks, |words|)
    ensures Rotator.Valid(m) && m.items == words && m.index == 0 && m.recent == []
    ensures multiset(m.shuffled) == multiset(words)
  {
    Rotator.New(words, picks)
  }

  /** `getCurrentWord`: `None` exactly when there are no words. */
  function GetCurrentWord(m: Manager): (r: Option<WordPair>)
    requires Rotator.Valid(m)
    ensures r.None? <==> |m.items| == 0
    ensures r.Some? ==> r.value == m.shuffled[m.index] && r.value in m.items
  {
    Rotator.Current(m)
  }

  /** `getNextWord`. The order is advanced (reshuffled at its end) and the cursor stops
      where the skip loop stops; the word returned is the new current word; the window
      ends with the word that was current; and with more than five words a returned word equal to a
      recent one on both fields is only accepted after every one of the `min(10, n)`
      positions the skip loop looked at held a recent word. */
  method GetNextWord(m: Manager, picks: seq<nat>) returns (m': Manager, r: Option<WordPair>)
    requires Rotator.Valid(m) && CsvParser.ValidPicks(picks, |m.items|)
    ensures Rotator.Valid(m') && m'.items == m.items
    ensures r == GetCurrentWord(m')
    ensures r.None? <==> |m.items| == 0
    ensures |m.items| > 0 ==>
      && 0 < |m'.recent| <= Rotator.MaxRecent
      && m'.recent[|m'.recent| - 1] == m.shuffled[m.index]
    ensures |m.items| > 0 ==> m'.recent == Seqs.LastN(m.recent + [m.shuffled[m.index]], Rotator.MaxRecent)
    ensures |m.items| > 0 ==> m'.shuffled == Rotator.Advance(m, picks).shuffled
    ensures |m.items| > 0 ==>
      exists k :: Rotator.SkippedTo(Rotator.Advance(m, picks), WordKey, k)
        && m'.index == Rotator.Slot(Rotator.Advance(m, picks), k)
    ensures 0 < |m.items| <= Rotator.MaxRecent ==> m'.index == Rotator.Advance(m, picks).index
    ensures |m.items| > Rotator.MaxRecent && r.Some? && MatchesRecentWord(m'.recent, r.value) ==>
      forall j :: 0 <= j < Rotator.Attempts(|m.items|) ==>
        MatchesRecentWord(m'.recent, Rotator.Candidate(Rotator.Advance(m, picks), j))
  {
    m', r := Rotator.Next(m, WordKey, picks);
    if |m.items| > Rotator.MaxRecent && r.Some? && MatchesRecentWord(m'.recent, r.value) {
      RecentWordIsRecentKey(m'.recent, r.value);
      forall j | 0 <= j < Rotator.Attempts(|m.items|)
        ensures MatchesRecentWord(m'.recent, Rotator.Candidate(Rotator.Advance(m, picks), j))
      {
        RecentWordIsRecentKey(m'.recent, Rotator.Candidate(Rotator.Advance(m, picks), j));
      }
    }
  }

  /** `getWordToDisplay`: the Dutch side in `nl-en`, the English side in `en-nl`. */
  function GetWordToDisplay(w: WordPair, mode: LearningMode): string
  {
    if mode == NlEn then w.dutch else w.english
  }

  /** `getCorrectAnswer`: the side of the word that is not displayed. */
  function GetCorrectAnswer(w: WordPair, mode: LearningMode): (answer: string)
    ensures mode == NlEn ==> GetWordToDisplay(w, mode) == w.dutch && answer == w.english
    ensures mode == EnNl ==> GetWordToDisplay(w, mode) == w.english && answer == w.dutch
  {
    if mode == NlEn then w.english else w.dutch
  }

  function Flip(mode: LearningMode): LearningMode
  {
    if mode == NlEn then EnNl else NlEn
  }

  /** The answer in one direction is what is displayed in the other, and together the
      displayed text and the expected answer are the two sides of the word. */
  lemma AnswerIsOtherSide(w: WordPair, mode: LearningMode)
    ensures GetCorrectAnswer(w, mode) == GetWordToDisplay(w, Flip(mode))
    ensures {GetWordToDisplay(w, mode), GetCorrectAnswer(w, mode)} == {w.dutch, w.english}
  {
  }

  /** `getTotalWordsCount`: the number of words loaded, however often they were reshuffled. */
  function GetTotalWordsCount(m: Manager): (n: nat)
    ensures Rotator.Valid(m) ==> n == |m.shuffled|
    ensures Rotator.Valid(m) ==> (n == 0 <==> GetCurrentWord(m).None?)
  {
    Rotator.TotalCount(m)
  }

  /** `reset`: a fresh shuffle of the same words, cursor at the start, empty window. */
  function Reset(m: Manager, picks: seq<nat>): (m': Manager)
    requires CsvParser.ValidPicks(picks, |m.items|)
    ensures Rotator.Valid(m') && m'.items == m.items && m'.index == 0 && m'.recent == []
    ensures GetCurrentWord(m') == (if |m.items| == 0 then None else Some(m'.shuffled[0]))
  {
    Rotator.Reset(m, picks)
  }
}

=== FILE: wrappers.dfy ===
/** Failure-carrying values used where the source returns `null` or throws. */
module Wrappers {

  /** A value that may be absent: the source's `T | null`. */
  datatype Option<+T> = None | Some(value: T)

  /** Either a value or the error the source would throw. */
  datatype Result<+R, +E> = Success(value: R) | Failure(error: E)
}
